=== FILE: README.md ===
# Bookmark list of the TV browser, modelled in Dafny

The TV browser app shows bookmarks in a vertically scrolling list, `BookmarkList`
(`tv_apps/browser/js/bookmarkList.js`). The list never holds more than a few
dozen DOM elements, however long the folder is. It keeps:

- a map from list index to element (`listItemMap`);
- a window of mapped indices, `listIndexStartAt .. listIndexEndAt`;
- the first row on screen, `listVisibleStartAt`, and the focused row, `focusIndex`;
- a pool of reset elements that are reused before new ones are created
  (`initializedItems`);
- a count of elements created so far (`listItemRenderNum`, capped at
  `MAX_LIST_ELEMENT` = 21 for the add path);
- a folder navigation stack (`navHistory`), whose top is the current folder
  (`navState`).

Rows arrive from a data provider through events. Row 0 of a sub-folder is a
back button ("Back to <folder>"). This project models the bookkeeping as pure
functions on an immutable state and proves what it guarantees.

Modules:

- `BookmarkState` (bookmark_state.dfy): the constants, data, elements, events
  and state, and the structural invariant `Wf`. `Wf` says:
  - every mapped element shows data at its own index, at offset `12 * index` rem;
  - the pool holds distinct blank elements;
  - every element is either pooled or mapped.

  It also defines the window predicate `Windowed`: the mapped indices are
  exactly `listIndexStartAt .. listIndexEndAt`.
- `BookmarkWindow` (bookmark_window.dfy): `reset`, `render` (as written and
  corrected, see Findings), `addItem` and `removeFocusItem`.
- `BookmarkFocus` (bookmark_focus.dfy): `loadItemBuffer`, `moveFocusIndexUp`
  and `moveFocusIndexDown`, and the UP/DOWN key handler.
- `BookmarkNav` (bookmark_nav.dfy): `open`, `close` and `handleKeyReturn`. It
  also models the data provider's callbacks to the range requests they make.
- `BookmarkInvariants` (bookmark_invariants.dfy): where the structure is
  kept. `reset` keeps it from any state. `render` keeps it into an emptied
  list. `addItem` keeps it for an unmapped row outside the window. Removal,
  `loadItemBuffer` and the focus moves keep it on a window. It also proves
  the element budget: pool plus mapped rows equals the elements created.
- `BookmarkMoves` (bookmark_moves.dfy): focus moves inside a window cannot
  fail. It also states when the window stays contiguous.
- `BookmarkFolders` (bookmark_folders.dfy): what a rendered folder shows,
  with `render` as written and corrected. Entering a folder and pressing its
  back button return to the history before, as long as the folder shows a
  back button; as written, an empty sub-folder shows none.

Modelling choices:

- **Elements** are opaque ids. What an element shows (its data, its
  `data-index` and its `translateY` offset in rem) lives in an element table.
  A blank element is the state `resetItem` leaves: no data, index -1, no
  transform.
- **Thrown.** Where the JavaScript dereferences a missing list element (an
  `undefined` from `listItemMap`), the operation returns `Thrown`. This stands
  for the TypeError it raises.
- **Events** the list dispatches (`loadDataByRange`, `loadDataByIndex`,
  `focusItem`, `itemRemoved`, `open`, `close`, `displayWebsite`) are appended
  to a log.
- **Callbacks.** Each `loadDataByRange` callback is modelled as a separate
  operation (`OpenLoaded`, `FolderLoaded`, `BackLoaded`). It runs on the state
  at the time the provider answers. `FolderLoadedCorrected` is the folder
  callback with `render` corrected (see Findings).
- **Map key order.** `reset` walks the map's keys in ascending order, which is
  the order JavaScript uses for non-negative integer keys.

## Model

| member | source | states |
|---|---|---|
| BookmarkWindow.Reset | tv_apps/browser/js/bookmarkList.js:138-156 | All four indices become 0, the folder becomes the empty string, the list scrolls to the top and the map ends empty. The old pool is kept as a prefix and every mapped element is blanked and appended after it. Nothing else changes. |
| BookmarkInvariants.ResetWf | tv_apps/browser/js/bookmarkList.js:138-156 | After `reset` the structure holds and every element is blank and pooled. |
| BookmarkWindow.ResetPools | tv_apps/browser/js/bookmarkList.js:147-153 | After `reset` the old pool is a prefix of the new one. The part appended holds every element that was mapped and nothing else, each once when no two rows shared an element. |
| BookmarkInvariants.ReleasedDistinct | tv_apps/browser/js/bookmarkList.js:147-153 | The elements `reset` pushes onto the pool are pairwise distinct and distinct from those already pooled. |
| BookmarkWindow.PlaceRows | tv_apps/browser/js/bookmarkList.js:177-194 | The render loop maps exactly the indices it walks and keeps every other row. It takes pooled elements before it creates any new ones, and touches nothing but elements, map and pool. |
| BookmarkWindow.Render | tv_apps/browser/js/bookmarkList.js:162-196 | `render` as written: the row count n is read before the back button is prepended. Rows 0..n-1 are mapped, `listIndexEndAt` is n-1 and the folder becomes the top of the history. |
| BookmarkWindow.RenderCorrected | tv_apps/browser/js/bookmarkList.js:162-196 | `render` with the count taken after the back button is prepended: n rows at the root, n+1 in a sub-folder. |
| BookmarkFolders.RenderDropsLast | tv_apps/browser/js/bookmarkList.js:162-196 | In a sub-folder, `render` as written keeps the structure and window. With bookmarks, it shows the back button at row 0 and bookmark k at row k+1 for all but the last, which gets no row. An empty sub-folder gets no row, not even the back button. |
| BookmarkFolders.RenderHidesOnlyBookmark | tv_apps/browser/js/bookmarkList.js:165-176 | A sub-folder with a single bookmark, other than the back button's own data, renders as the back button alone; no row shows the bookmark. |
| BookmarkFolders.RenderCorrectedShowsAll | tv_apps/browser/js/bookmarkList.js:162-196 | After a reset, the corrected render keeps the structure and makes the rows a window 0..n-1. Row 0 of a sub-folder is the back button titled after the folder, and every bookmark k is shown at row k (root) or k+1 (sub-folder). |
| BookmarkFolders.RenderAtRoot | tv_apps/browser/js/bookmarkList.js:172-174 | At the root there is no back button, and the as-written and corrected renders agree. |
| BookmarkFolders.RenderElementCount | tv_apps/browser/js/bookmarkList.js:182-190 | After a reset, `render` creates elements only once the pool is empty: as written it ends with the larger of the elements it had and the bookmark count, corrected with the larger of those it had and the rows it shows. |
| BookmarkInvariants.PlaceRowsWf | tv_apps/browser/js/bookmarkList.js:177-194 | The render loop keeps the structure when the rows it fills, i and after, are unmapped. |
| BookmarkInvariants.PlaceRowsShows | tv_apps/browser/js/bookmarkList.js:177-194 | The render loop shows `rows[j]` at row j. |
| BookmarkInvariants.PlaceNextWf | tv_apps/browser/js/bookmarkList.js:182-193 | Taking the last pooled element, or a new one, for a new row keeps the structure. The taken element was not mapped, and no other element or row changes. |
| BookmarkWindow.AddItem | tv_apps/browser/js/bookmarkList.js:211-258 | No data, or an index inside the window, changes nothing. Otherwise the row is placed at `12 * index` rem and becomes the new first row (below the window) or last row (above it). The element is the last pooled one if any. With an empty pool and 21 elements, it is the element at the far end of the window, which is unmapped and the window shrinks there; the add fails exactly when that far-end row is missing. With an empty pool and fewer than 21 elements, the element is a new one whose id is the old count, and the count rises by one. The element count rises by at most one, and never past 21 from at most 21. |
| BookmarkWindow.AddItemKeeps | tv_apps/browser/js/bookmarkList.js:217-258 | Adding a row outside the window leaves every other row with its element, except the far end of the window when it is evicted, and leaves every element but the one taken as it was. |
| BookmarkInvariants.AddItemWf | tv_apps/browser/js/bookmarkList.js:211-258 | Adding an unmapped row outside the window keeps the structure, whichever element it takes. |
| BookmarkInvariants.AddItemWindowed | tv_apps/browser/js/bookmarkList.js:216-257 | Adding the row just before or just after a window keeps the rows a window. An eviction from a non-empty window cannot fail. |
| BookmarkInvariants.RelocateWf | tv_apps/browser/js/bookmarkList.js:221-224 | Moving the far-end element of the window to the new row keeps the structure. |
| BookmarkWindow.ShiftDownSome | tv_apps/browser/js/bookmarkList.js:456-461 | The re-indexing loop from row i reads every row from i+1 to the last, and succeeds exactly when all of them are mapped. |
| BookmarkWindow.ShiftDownRows | tv_apps/browser/js/bookmarkList.js:456-461 | What the re-indexing loop does to the rows is what the same loop does on the row map alone: both fail together, and on success they leave the same map. |
| BookmarkWindow.ShiftRowsSome | tv_apps/browser/js/bookmarkList.js:456-461 | The loop on the row map succeeds exactly when every row from i+1 to the last is mapped. |
| BookmarkWindow.ShiftRowsKeys | tv_apps/browser/js/bookmarkList.js:456-461 | After the loop, the mapped rows are those mapped before plus every row from i to the last but one. |
| BookmarkWindow.ShiftRowsShifted | tv_apps/browser/js/bookmarkList.js:456-458 | After the loop, each row j from i to the last but one holds the element row j+1 held before. |
| BookmarkWindow.ShiftRowsKept | tv_apps/browser/js/bookmarkList.js:456-461 | The loop leaves the rows before i and the last row with their elements. |
| BookmarkWindow.ShiftDownMoves | tv_apps/browser/js/bookmarkList.js:456-461 | For the state the loop ends in: the rows it read were mapped, the rows it fills are added, each filled row holds its successor's old element, and the other rows are untouched. |
| BookmarkInvariants.ShiftDownElem | tv_apps/browser/js/bookmarkList.js:456-461 | The element of one row j behind i, when the rows are distinct and in the table, ends at index j-1, one row height higher. |
| BookmarkInvariants.ShiftDownOther | tv_apps/browser/js/bookmarkList.js:456-461 | An element no row behind i holds is left exactly as it was, one element at a time. |
| BookmarkInvariants.ShiftDownElems | tv_apps/browser/js/bookmarkList.js:456-461 | When the rows behind i hold distinct elements of the table, the loop gives the element of each row j behind i the index j-1 and lifts it by 12 rem. |
| BookmarkInvariants.ShiftDownOthers | tv_apps/browser/js/bookmarkList.js:456-461 | Every element the loop does not move, that is every element but those of the rows behind i, is unchanged. |
| BookmarkWindow.RemoveFocusItem | tv_apps/browser/js/bookmarkList.js:446-478 | With no element at the focus nothing changes. Otherwise the focused element is appended to the pool, the last index drops by one, and the first row, visible start, scroll offset, folder, history and element count stay. |
| BookmarkWindow.RemoveThrows | tv_apps/browser/js/bookmarkList.js:456-473 | `removeFocusItem` fails exactly when a row behind the focus is missing, or the focus was on the last row and the row before it, which it then focuses, is missing. |
| BookmarkWindow.RemoveRows | tv_apps/browser/js/bookmarkList.js:456-464 | After `removeFocusItem`, each row from the focus to the last but one holds what the row behind it held, the rows before the focus keep their elements, and the old last row is gone. |
| BookmarkWindow.RemoveRefocuses | tv_apps/browser/js/bookmarkList.js:466-476 | The focus stays unless it was on the last row, when it moves to the new last row. The new focused row is announced with `focusItem`, and `itemRemoved` comes last; with no row at the new focus only `itemRemoved` is logged. |
| BookmarkWindow.Refocus | tv_apps/browser/js/bookmarkList.js:468-476 | The end of `removeFocusItem`: a focused row is announced; with none, the last row becomes the focus and is announced, which fails when that row is missing. `itemRemoved` follows. The log gains exactly two events when the final focus has a row and only `itemRemoved` otherwise, so an empty list announces nothing. Nothing else changes. |
| BookmarkInvariants.RemoveWindowed | tv_apps/browser/js/bookmarkList.js:446-478 | On a window, `removeFocusItem` fails exactly when it removes the only row of a window that does not start at row 0. Otherwise the rows stay a window one row shorter. |
| BookmarkInvariants.RemoveElemFacts | tv_apps/browser/js/bookmarkList.js:450-461 | The focused element is blanked and appended to the pool. Every element behind it takes the index before its own and an offset 12 rem smaller; every other element is unchanged. |
| BookmarkInvariants.RemoveShownKey | tv_apps/browser/js/bookmarkList.js:450-461 | An element still shown after `removeFocusItem` was mapped before, at a row other than the focused one, and its index was that row. |
| BookmarkInvariants.RemoveShownOne | tv_apps/browser/js/bookmarkList.js:450-464 | An element shown after `removeFocusItem` on a window is the element mapped at its own index. |
| BookmarkInvariants.RemoveShownMapped | tv_apps/browser/js/bookmarkList.js:450-464 | After `removeFocusItem` on a window, every shown element is the element mapped at its own index. |
| BookmarkInvariants.RemoveWf | tv_apps/browser/js/bookmarkList.js:446-478 | `removeFocusItem` on a window keeps the structure. |
| BookmarkMoves.RemoveCanHideFocus | tv_apps/browser/js/bookmarkList.js:466-472 | `removeFocusItem` never scrolls. Removing the last row while it is the top visible row leaves the focus one row above the screen. |
| BookmarkInvariants.Budget | tv_apps/browser/js/bookmarkList.js:39-91 | Pooled elements plus mapped rows equal the elements created. |
| BookmarkInvariants.WindowCard | tv_apps/browser/js/bookmarkList.js:51-61 | A window maps exactly `listIndexEndAt - listIndexStartAt + 1` rows. |
| BookmarkFocus.LoadItemBuffer | tv_apps/browser/js/bookmarkList.js:534-573 | `loadItemBuffer` changes no focus, visible start, scroll position or folder. Outside the back-button case it only appends requests. In that case, row 0 shows the back button at offset 0 and becomes the window's first row; it fails only if the eviction finds no row. |
| BookmarkFocus.BufferBackKeeps | tv_apps/browser/js/bookmarkList.js:539-544 | When `loadItemBuffer` adds the back button, every row but row 0 keeps its element, except the window's last row when it is evicted, and every element but the back button's is unchanged. |
| BookmarkFocus.LoadItemBufferRequests | tv_apps/browser/js/bookmarkList.js:534-573 | Every request names the current folder, with data index equal to the list index at the root and one less in a sub-folder. The row seven before is requested exactly when it is at or after row 0 and before the window and is not the back button. The row seven after is requested exactly when it is past the window. |
| BookmarkFocus.BufferBefore | tv_apps/browser/js/bookmarkList.js:537-557 | The row seven before the index is either requested or, at row 0 of a sub-folder, made locally as the back button. |
| BookmarkMoves.BufferKeeps | tv_apps/browser/js/bookmarkList.js:534-573 | For a row of a window, `loadItemBuffer` cannot fail, keeps the structure and the row's element. The rows stay a window exactly when no back button is added or the window started at row 1. |
| BookmarkMoves.BackButtonAdd | tv_apps/browser/js/bookmarkList.js:541-544 | Adding the back button near the top never evicts the focused row: a full list of 21 rows reaches past it. |
| BookmarkFocus.MoveFocusIndexUp | tv_apps/browser/js/bookmarkList.js:646-661 | Nothing changes unless the focus is after the window's first row. Then the focus moves up one and the screen scrolls down a row exactly when the new focus is above it. The focused element is announced. "Visible start at or before focus", "focus fewer than 7 rows below the top" and "scroll offset matches the top row" are preserved. |
| BookmarkFocus.MoveFocusIndexDown | tv_apps/browser/js/bookmarkList.js:666-682 | Nothing changes unless the focus is before the window's last row. Then the focus moves down one and the screen scrolls up a row exactly when the focus would reach the 7th row below the top. The same three facts are preserved. |
| BookmarkMoves.MoveUpKeeps | tv_apps/browser/js/bookmarkList.js:646-661 | Inside a window, moving up cannot fail, keeps the structure and lands on a mapped row, which keeps the element it had. It keeps the window unless a back button is added away from it. |
| BookmarkMoves.MoveDownKeeps | tv_apps/browser/js/bookmarkList.js:666-682 | Inside a window, moving down cannot fail, keeps the structure and lands on a mapped row, which keeps the element it had. It keeps the window unless a back button is added away from it. |
| BookmarkMoves.MoveUpFrame | tv_apps/browser/js/bookmarkList.js:646-661 | Moving up keeps the folder and history, and keeps rows, elements, pool and window unless the back button is added. The log gains the request for the row before, if any, then the one for the row after, if any, then `focusItem` for the new focused row. |
| BookmarkMoves.MoveDownFrame | tv_apps/browser/js/bookmarkList.js:666-682 | Moving down: the same frame and log as moving up. |
| BookmarkFocus.HandleKeyDown | tv_apps/browser/js/bookmarkList.js:684-698 | UP moves the focus one row up unless it is on the window's first row, DOWN one row down unless it is on the last; any other key changes nothing. |
| BookmarkMoves.BackButtonGap | tv_apps/browser/js/bookmarkList.js:539-544 | When the back button is added while the window starts at row 2 or later, the window becomes 0..end with row 1 unmapped, and `addItem` of row 1 then changes nothing. |
| BookmarkMoves.GapStopsMoveUp | tv_apps/browser/js/bookmarkList.js:646-661 | With row 1 unmapped in a window starting at 0, moving up from row 2 fails on the missing element. |
| BookmarkNav.Open | tv_apps/browser/js/bookmarkList.js:101-123 | `open` resets the list: all four indices 0, the folder the empty string, the scroll offset 0, the map empty, every mapped element blanked and appended to the pool in key order, the element count kept. It then requests 14 rows of the root folder. |
| BookmarkNav.Close | tv_apps/browser/js/bookmarkList.js:128-133 | `close` empties the history, hides the list, dispatches `close`, and changes nothing else. |
| BookmarkNav.OpenLoaded | tv_apps/browser/js/bookmarkList.js:106-117 | The open callback pushes the root folder, renders with `render` as written, shows the list, focuses row 0 if it exists and dispatches `open`. |
| BookmarkFolders.OpenShowsRoot | tv_apps/browser/js/bookmarkList.js:101-123 | Opening and receiving the root's bookmarks leaves the root current, the structure and window intact, and bookmark k at row k. |
| BookmarkNav.FocusFirstRow | tv_apps/browser/js/bookmarkList.js:764-772 | With rows present, row 0 is focused, or row 1 when row 0 is the back button and a second row exists; it fails exactly when the row to focus is missing. An empty listing changes nothing. Only the focus and the log change. |
| BookmarkFocus.FocusCurrent | tv_apps/browser/js/bookmarkList.js:658-659 | Announcing the focused row succeeds exactly when it has an element, and then only appends `focusItem` for that element. |
| BookmarkNav.ShowFolder | tv_apps/browser/js/bookmarkList.js:761-772 | The folder callbacks as written map rows 0..n-1 for n bookmarks and cannot fail. They focus row 1 exactly when row 0 is a back button and a second row exists, and otherwise announce row 0 with the focus unchanged; an empty listing announces nothing. |
| BookmarkNav.ShowFolderCorrected | tv_apps/browser/js/bookmarkList.js:761-772 | The same callbacks with `render` corrected: one row more in a sub-folder, the same focus rule. |
| BookmarkNav.FolderLoaded | tv_apps/browser/js/bookmarkList.js:759-773 | Entering a folder pushes it and makes it current; its last index is its bookmark count minus one, in a sub-folder too. |
| BookmarkNav.FolderLoadedCorrected | tv_apps/browser/js/bookmarkList.js:759-773 | With `render` corrected, a sub-folder's last index is its bookmark count. |
| BookmarkNav.BackLoaded | tv_apps/browser/js/bookmarkList.js:792-805 | The back callback keeps the history; the folder below the popped one becomes current and its last index is its bookmark count minus one. |
| BookmarkNav.HandleKeyReturn | tv_apps/browser/js/bookmarkList.js:746-812 | A folder row leaves exactly the state `reset` gives (see `BookmarkWindow.Reset`) and requests 13 rows of that folder. A bookmark row dispatches its address and closes. The back button leaves the state `reset` gives after popping the history, and requests 13 rows of the folder now on top. Rows of any other type change nothing. |
| BookmarkFolders.FolderShows | tv_apps/browser/js/bookmarkList.js:759-773 | A sub-folder's rows arriving in an emptied list, as written: the structure and window hold. With n > 0 bookmarks, row 0 is "Back to" the folder, bookmark k < n-1 is at row k+1 and row n is empty. With none, no row is mapped. With more than one bookmark row 1 is focused and announced; with one, the focus stays and row 0, the back button, is announced. |
| BookmarkFolders.FolderShowsCorrected | tv_apps/browser/js/bookmarkList.js:759-773 | With `render` corrected: row 0 is the back button and every bookmark k is at row k+1. With a bookmark, row 1 is focused and announced; without, the focus stays and the back button is announced. |
| BookmarkFolders.ShowFolderFocusRoot | tv_apps/browser/js/bookmarkList.js:764-772 | At the root, bookmarks arriving in an emptied list put the first bookmark at row 0; unless its type is button, the focus stays and row 0 is announced. |
| BookmarkFolders.EnterFolder | tv_apps/browser/js/bookmarkList.js:751-780 | Selecting a folder row requests the folder. Once its rows arrive the folder is on top of the history; with bookmarks, the back button and all but the last are shown; without, no row is. With more than one bookmark, row 1 ends up focused and announced. |
| BookmarkFolders.EnterEmpties | tv_apps/browser/js/bookmarkList.js:751-780 | Selecting a folder row leaves an emptied list with the history unchanged and a request for 13 rows of that folder. |
| BookmarkFolders.EnterFolderCorrected | tv_apps/browser/js/bookmarkList.js:751-780 | With `render` corrected, the back button and every bookmark are shown, and with a bookmark row 1 is focused and announced. |
| BookmarkFolders.BackReturns | tv_apps/browser/js/bookmarkList.js:786-807 | After entering a folder from a state, as written, row 0 exists exactly when the folder has a bookmark. Pressing it then restores that state's history and requests the parent folder's rows. |
| BookmarkFolders.BackReturnsCorrected | tv_apps/browser/js/bookmarkList.js:786-807 | With `render` corrected, row 0 is always the back button and pressing it restores the history. |
| BookmarkFolders.HistoryPushPop | tv_apps/browser/js/bookmarkList.js:623-630 | The folder pushed last is the current one, popping undoes the push, and an empty history has no current folder (null). |
| BookmarkFolders.InitialEmptied | tv_apps/browser/js/bookmarkList.js:35-92 | The constructor's state satisfies the structure with an empty map and the window at row 0: the invariant holds from the start. |
| BookmarkWindow.Ascending | tv_apps/browser/js/bookmarkList.js:147-148 | The keys of the map in strictly ascending order, each exactly once: the order `for ... in` visits them. |
| BookmarkWindow.InKeyOrder | tv_apps/browser/js/bookmarkList.js:147-153 | The mapped elements in key order: every mapped element appears, nothing else does, and none repeats when no two rows share an element. |

## Left out

- The music view and every other file of the browser app are not part of this model.
- DOM content: icons, titles and address text are reduced to the data an element shows. `createItem` and `updateItem` are not distinguished; `updateItem`'s handling of an unknown type, which keeps the previous text, is not modelled.
- `focusItem` is reduced to the `focusItem` event; `el.focus()`, blur, `focusFirstVisibleItem`, mouse handlers, `handleKeySubmenu`, `isDisplay`, `getFocusItemUri`, `getFocusItemTitle` and `updateFocusItemTitle` are not modelled.
- `shiftItemTransform` parses the CSS `translateY` string. A blank element's empty transform reads as offset 0 here; the JavaScript parse of an empty string is not modelled.
- A JavaScript exception leaves the state partly updated. The model returns `Thrown` and drops that partial state.
- Callbacks from the data provider are modelled as separate operations. Any interleaving of them with key presses is not constrained; each is modelled on the state it is given.
- Map keys are visited in ascending order, which is JavaScript's order for non-negative integer keys only; the order for negative keys is not modelled.
- BookmarkNav.HandleKeyReturn: requires its target to be one of the list's elements, since the event handler is only attached to them.
- `loadDataByIndex` answers arrive through `addItem`; the data provider itself is not modelled.
- BookmarkMoves.MoveUpKeeps: covers moves that start inside a window, with the structure intact. A focus outside the window, reachable after `removeFocusItem` of a single-row window, is not covered.
- BookmarkMoves.MoveDownKeeps: covers moves that start inside a window, with the structure intact. A focus outside the window, reachable after `removeFocusItem` of a single-row window, is not covered.
- BufferKeeps: requires the rows to be a window. A list with a gap, which `BackButtonGap` shows `loadItemBuffer` can leave, is not covered; no weaker invariant is proved for it.
- RemoveWf: requires the rows to be a window; lists with the gap `BackButtonGap` describes are not covered.
- MoveUpKeeps, MoveDownKeeps: likewise require a window; after the gap, `GapStopsMoveUp` shows a move that fails.
- BookmarkInvariants.PlaceRowsWf / AddItemWf: require the rows they fill to be unmapped. Rendering or adding over a mapped row, which a late `addItem` between `reset` and the range callback can cause, re-maps the row and orphans its old element; the structure is not claimed there.
- Kind: `OtherKind` may carry an empty name or one of the three known type names, which the JavaScript would treat as untyped or as that type; such data is outside the model's intended inputs.

## Findings

| source | as written | input that shows it | evidently intended | confidence | as-written member | corrected member |
|---|---|---|---|---|---|---|
| tv_apps/browser/js/bookmarkList.js:165-176 | `render` reads `length = bookmarks.length` before it prepends the back button in a sub-folder, so the loop places the back button and only the first length-1 bookmarks, and `listIndexEndAt` is length-1. | A sub-folder with one bookmark: the list shows "Back to <folder>" alone and the bookmark has no row. An empty sub-folder shows no back button either. | Every bookmark gets a row after the back button. The sub-folder request asks for 13 rows against 14 at the root, which fits 13 bookmarks plus the back button. | medium, not executed | BookmarkFolders.RenderHidesOnlyBookmark | BookmarkFolders.RenderCorrectedShowsAll |

`BookmarkWindow.Render` models the code as written, and `BookmarkFolders.RenderDropsLast` states what it shows. The callbacks (`OpenLoaded`, `ShowFolder`, `FolderLoaded`, `BackLoaded`) use it, as the code does. `BookmarkWindow.RenderCorrected` is the fix; `ShowFolderCorrected` and `FolderLoadedCorrected` are the callbacks with it, and `FolderShowsCorrected`, `EnterFolderCorrected` and `BackReturnsCorrected` state what they show. At the root the two renders are the same function (`BookmarkFolders.RenderAtRoot`).

=== FILE: bookmark_focus.dfy ===
/** Moving the focus through the list: keeping the focused row on screen and
    asking the data provider for the rows one screen ahead and behind. */
module BookmarkFocus {
  import opened BookmarkState
  import opened BookmarkWindow

  /** `loadItemBuffer(index)` asks for the row one screen before index. */
  predicate WantsBefore(s: State, index: int)
  {
    0 <= index - MAX_VISIBLE_ITEM < s.listIndexStartAt
  }

  /** The row wanted before index is the back button, which the list makes
      itself instead of asking the data provider. */
  predicate AddsBackButton(s: State, index: int)
  {
    WantsBefore(s, index) && !IsRoot(s.navState) && index - MAX_VISIBLE_ITEM == 0
  }

  /** The request for list row i in the current folder. */
  function RequestFor(nav: JsString, i: int): Event
  {
    LoadDataByIndex(i, DataIndex(nav, i), nav)
  }

  /** The requests `loadItemBuffer(index)` sends for the row before index. */
  function AskedBefore(s: State, index: int): seq<Event>
  {
    if WantsBefore(s, index) && !AddsBackButton(s, index)
    then [RequestFor(s.navState, index - MAX_VISIBLE_ITEM)] else []
  }

  /** The request `loadItemBuffer(index)` sends for the row one screen
      after index: sent exactly when that row is past the window. */
  function AskedAfter(s: State, index: int): seq<Event>
  {
    if index + MAX_VISIBLE_ITEM > s.listIndexEndAt then [RequestFor(s.navState, index + MAX_VISIBLE_ITEM)] else []
  }

  /** The first half of `loadItemBuffer`: the row one screen before index. */
  function BufferBefore(s: State, index: int): (r: Outcome)
    ensures r.Thrown? ==> AddsBackButton(s, index) && MustEvict(s) && s.listIndexEndAt !in s.listItemMap
    ensures r.Ok? && !AddsBackButton(s, index) ==> r.state == s.(log := s.log + AskedBefore(s, index))
    ensures r.Ok? && AddsBackButton(s, index) ==>
              var t := r.state;
              && t.listIndexStartAt == 0 && 0 in t.listItemMap && t.listItemMap[0] in t.elems
              && t.elems[t.listItemMap[0]] == Elem(Shows(BackButtonData(s.navState)), 0, 0)
              && t.focusIndex == s.focusIndex && t.listVisibleStartAt == s.listVisibleStartAt
              && t.navState == s.navState && t.navHistory == s.navHistory
              && t.listOffset == s.listOffset && t.shown == s.shown && t.log == s.log
  {
    if AddsBackButton(s, index) then AddItem(s, 0, Some(BackButtonData(s.navState)))
    else Ok(s.(log := s.log + AskedBefore(s, index)))
  }

  /** `loadItemBuffer`: preloads the rows MAX_VISIBLE_ITEM before and after
      index when they are outside the window. */
  function LoadItemBuffer(s: State, index: int): (r: Outcome)
    ensures r.Thrown? ==> AddsBackButton(s, index) && MustEvict(s) && s.listIndexEndAt !in s.listItemMap
    ensures r.Ok? ==>
              var t := r.state;
              && t.focusIndex == s.focusIndex && t.listVisibleStartAt == s.listVisibleStartAt
              && t.navState == s.navState && t.navHistory == s.navHistory
              && t.listOffset == s.listOffset && t.shown == s.shown
              && (!AddsBackButton(s, index) ==> t.(log := s.log) == s)
              && (AddsBackButton(s, index) ==>
                    && t.listIndexStartAt == 0 && 0 in t.listItemMap && t.listItemMap[0] in t.elems
                    && t.elems[t.listItemMap[0]] == Elem(Shows(BackButtonData(s.navState)), 0, 0))
  {
    match BufferBefore(s, index)
    case Thrown => Thrown
    case Ok(s1) => Ok(s1.(log := s1.log + AskedAfter(s1, index)))
  }

  /** The back-button case of `loadItemBuffer` leaves alone every row but
      row 0 and, when the element is evicted, the window's last row, and
      every element but the one showing the back button. */
  lemma BufferBackKeeps(s: State, index: int)
    requires AddsBackButton(s, index) && LoadItemBuffer(s, index).Ok?
    ensures var t := LoadItemBuffer(s, index).state;
            && 0 in t.listItemMap
            && (forall k | k in s.listItemMap && k != 0 && (k != s.listIndexEndAt || !MustEvict(s)) ::
                  k in t.listItemMap && t.listItemMap[k] == s.listItemMap[k])
            && (forall id | id in s.elems && id != t.listItemMap[0] ::
                  id in t.elems && t.elems[id] == s.elems[id])
  {
    var d := BackButtonData(s.navState);
    AddItemKeeps(s, 0, d);
    var a := AddItem(s, 0, Some(d)).state;
    var t := LoadItemBuffer(s, index).state;
    assert t.listItemMap == a.listItemMap && t.elems == a.elems;
  }

  /** The requests `loadItemBuffer(index)` sends: the row one screen before
      index exactly when it is at or above 0 and before the window (and is
      not the back button), the row one screen after exactly when it is past
      the window; each names the data index of its row in the current folder. */
  lemma LoadItemBufferRequests(s: State, index: int)
    requires LoadItemBuffer(s, index).Ok?
    ensures var t := LoadItemBuffer(s, index).state;
            && |t.log| >= |s.log| && t.log[..|s.log|] == s.log
            && (forall e | e in t.log[|s.log|..] ::
                  && e.LoadDataByIndex? && e.folder == s.navState
                  && e.dataIndex == DataIndex(s.navState, e.listIndex)
                  && (|| (e.listIndex == index - MAX_VISIBLE_ITEM && WantsBefore(s, index)
                          && !AddsBackButton(s, index))
                      || (e.listIndex == index + MAX_VISIBLE_ITEM && index + MAX_VISIBLE_ITEM > t.listIndexEndAt)))
            && (WantsBefore(s, index) && !AddsBackButton(s, index) ==>
                  RequestFor(s.navState, index - MAX_VISIBLE_ITEM) in t.log[|s.log|..])
            && (index + MAX_VISIBLE_ITEM > t.listIndexEndAt ==>
                  RequestFor(s.navState, index + MAX_VISIBLE_ITEM) in t.log[|s.log|..])
  {
    var s1 := BufferBefore(s, index).state;
    var asked := AskedBefore(s, index);
    assert s1.log == s.log + asked;
    var after := index + MAX_VISIBLE_ITEM;
    var t := LoadItemBuffer(s, index).state;
    assert s1.navState == s.navState && t.listIndexEndAt == s1.listIndexEndAt;
    var added := t.log[|s.log|..];
    var tail := AskedAfter(s1, index);
    assert t.log == s.log + asked + tail;
    assert added == asked + tail;
    forall e | e in added
      ensures && e.LoadDataByIndex? && e.folder == s.navState
              && e.dataIndex == DataIndex(s.navState, e.listIndex)
              && (|| (e.listIndex == index - MAX_VISIBLE_ITEM && WantsBefore(s, index)
                      && !AddsBackButton(s, index))
                  || (e.listIndex == after && after > t.listIndexEndAt))
    {
      if e in asked {
        assert e == RequestFor(s.navState, index - MAX_VISIBLE_ITEM);
      } else {
        assert e in tail;
      }
    }
  }

  /** `focusItem(listItemMap[focusIndex])`: throws when the row has no element. */
  function FocusCurrent(s: State): (r: Outcome)
    ensures r.Ok? <==> s.focusIndex in s.listItemMap
    ensures r.Ok? ==> r.state == s.(log := s.log + [FocusItem(s.listItemMap[s.focusIndex])])
  {
    if s.focusIndex in s.listItemMap then Ok(Emit(s, FocusItem(s.listItemMap[s.focusIndex])))
    else Thrown
  }

  /** The focus one row up, the list scrolled down by a row when the new
      focus is above the visible rows. */
  function StepUp(s: State): (r: State)
    ensures r.(focusIndex := s.focusIndex, listVisibleStartAt := s.listVisibleStartAt, listOffset := s.listOffset) == s
  {
    var f := s.focusIndex - 1;
    if f < s.listVisibleStartAt then
      s.(focusIndex := f, listVisibleStartAt := s.listVisibleStartAt - 1,
         listOffset := s.listOffset + LIST_ITEM_HEIGHT)
    else s.(focusIndex := f)
  }

  /** The focus one row down, the list scrolled up by a row when the new
      focus would be the MAX_VISIBLE_ITEM-th row below the top. */
  function StepDown(s: State): (r: State)
    ensures r.(focusIndex := s.focusIndex, listVisibleStartAt := s.listVisibleStartAt, listOffset := s.listOffset) == s
  {
    var f := s.focusIndex + 1;
    if f - s.listVisibleStartAt == MAX_VISIBLE_ITEM then
      s.(focusIndex := f, listVisibleStartAt := s.listVisibleStartAt + 1,
         listOffset := s.listOffset - LIST_ITEM_HEIGHT)
    else s.(focusIndex := f)
  }

  /** `moveFocusIndexUp`: one row up, scrolling down by a row when the new
      focus is above the visible rows. */
  function MoveFocusIndexUp(s: State): (r: Outcome)
    ensures s.focusIndex <= s.listIndexStartAt ==> r == Ok(s)
    ensures r.Ok? && s.focusIndex > s.listIndexStartAt ==>
              var t := r.state;
              && t.focusIndex == s.focusIndex - 1
              && t.listVisibleStartAt ==
                   (if s.focusIndex - 1 < s.listVisibleStartAt then s.listVisibleStartAt - 1 else s.listVisibleStartAt)
              && t.listOffset == s.listOffset + LIST_ITEM_HEIGHT * (s.listVisibleStartAt - t.listVisibleStartAt)
              && t.focusIndex in t.listItemMap && |t.log| > 0
              && t.log[|t.log| - 1] == FocusItem(t.listItemMap[t.focusIndex])
    ensures r.Ok? && s.listVisibleStartAt <= s.focusIndex ==> r.state.listVisibleStartAt <= r.state.focusIndex
    ensures r.Ok? && s.focusIndex - s.listVisibleStartAt < MAX_VISIBLE_ITEM ==>
              r.state.focusIndex - r.state.listVisibleStartAt < MAX_VISIBLE_ITEM
    ensures r.Ok? && ScrollMatchesWindow(s) ==> ScrollMatchesWindow(r.state)
  {
    if s.focusIndex > s.listIndexStartAt then
      match LoadItemBuffer(StepUp(s), s.focusIndex - 1)
      case Thrown => Thrown
      case Ok(s2) => FocusCurrent(s2)
    else Ok(s)
  }

  /** `moveFocusIndexDown`: one row down, scrolling up by a row when the new
      focus would be the MAX_VISIBLE_ITEM-th row below the top. */
  function MoveFocusIndexDown(s: State): (r: Outcome)
    ensures s.focusIndex >= s.listIndexEndAt ==> r == Ok(s)
    ensures r.Ok? && s.focusIndex < s.listIndexEndAt ==>
              var t := r.state;
              && t.focusIndex == s.focusIndex + 1
              && t.listVisibleStartAt ==
                   (if s.focusIndex + 1 - s.listVisibleStartAt == MAX_VISIBLE_ITEM
                    then s.listVisibleStartAt + 1 else s.listVisibleStartAt)
              && t.listOffset == s.listOffset + LIST_ITEM_HEIGHT * (s.listVisibleStartAt - t.listVisibleStartAt)
              && t.focusIndex in t.listItemMap && |t.log| > 0
              && t.log[|t.log| - 1] == FocusItem(t.listItemMap[t.focusIndex])
    ensures r.Ok? && s.listVisibleStartAt <= s.focusIndex ==> r.state.listVisibleStartAt <= r.state.focusIndex
    ensures r.Ok? && s.focusIndex - s.listVisibleStartAt < MAX_VISIBLE_ITEM ==>
              r.state.focusIndex - r.state.listVisibleStartAt < MAX_VISIBLE_ITEM
    ensures r.Ok? && ScrollMatchesWindow(s) ==> ScrollMatchesWindow(r.state)
  {
    if s.focusIndex < s.listIndexEndAt then
      match LoadItemBuffer(StepDown(s), s.focusIndex + 1)
      case Thrown => Thrown
      case Ok(s2) => FocusCurrent(s2)
    else Ok(s)
  }

  datatype Key = Up | Down | OtherKey

  /** `handleItemKeyDown`: the UP and DOWN keys move the focus one row,
      unless it is already on the first (UP) or last (DOWN) row of the
      window; any other key changes nothing. */
  function HandleKeyDown(s: State, key: Key): (r: Outcome)
    ensures key.OtherKey? ==> r == Ok(s)
    ensures r.Ok? && key.Up? ==>
              r.state.focusIndex == if s.focusIndex > s.listIndexStartAt then s.focusIndex - 1 else s.focusIndex
    ensures r.Ok? && key.Down? ==>
              r.state.focusIndex == if s.focusIndex < s.listIndexEndAt then s.focusIndex + 1 else s.focusIndex
  {
    match key
    case Up => MoveFocusIndexUp(s)
    case Down => MoveFocusIndexDown(s)
    case OtherKey => Ok(s)
  }
}

=== FILE: bookmark_folders.dfy ===
/** What a folder listing looks like once rendered, and how entering a
    folder and pressing its back button return to the history before. */
module BookmarkFolders {
  import opened BookmarkState
  import opened BookmarkWindow
  import opened BookmarkNav
  import opened BookmarkInvariants
  import opened BookmarkMoves

  /** What rows show depends on nothing but the rows. */
  lemma SameRowsShow(s: State, t: State, bookmarks: seq<ItemData>, from: int)
    requires SameRows(s, t)
    ensures ShowsAll(s, bookmarks, from) ==> ShowsAll(t, bookmarks, from)
    ensures forall k, d :: RowShows(s, k, d) ==> RowShows(t, k, d)
  {
  }

  /** A list emptied by `reset`: no rows, the window at row 0. */
  ghost predicate Emptied(s: State)
  {
    Wf(s) && s.listItemMap == map[] && s.listIndexStartAt == 0
  }

  lemma ResetEmpties(s: State)
    requires Wf(s)
    ensures Emptied(Reset(s))
  {
    ResetWf(s);
  }

  /** The list the constructor builds is emptied: the structure holds from
      the start. */
  lemma InitialEmptied()
    ensures Emptied(Initial())
  {
  }

  // ---------------------------------------------------------------------
  // render as written, and corrected

  /** At the root folder there is no back button, and `render` as written
      and corrected agree. */
  lemma RenderAtRoot(s: State, bookmarks: seq<ItemData>)
    requires IsRoot(CurNavHistory(s.navHistory))
    ensures Render(s, bookmarks) == RenderCorrected(s, bookmarks)
  {
    assert RowsFor(CurNavHistory(s.navHistory), bookmarks)[..|bookmarks|] == bookmarks;
  }

  /** `render` as written, in a sub-folder: the back button and all but the
      last bookmark get rows; the last bookmark gets none. An empty
      sub-folder gets no row at all, not even the back button. */
  lemma RenderDropsLast(s: State, bookmarks: seq<ItemData>)
    requires Emptied(s) && !IsRoot(CurNavHistory(s.navHistory))
    ensures var r := Render(s, bookmarks);
            && Wf(r) && Windowed(r)
            && r.listIndexEndAt == |bookmarks| - 1
            && (|bookmarks| == 0 ==> r.listItemMap == map[])
            && (|bookmarks| > 0 ==>
                  && RowShows(r, 0, BackButtonData(CurNavHistory(s.navHistory)))
                  && ShowsAll(r, bookmarks[..|bookmarks| - 1], 1)
                  && |bookmarks| !in r.listItemMap)
  {
    var rows := RowsFor(CurNavHistory(s.navHistory), bookmarks)[..|bookmarks|];
    assert Render(s, bookmarks) == FillRows(s, rows);
    FillRowsWf(s, rows);
    if |bookmarks| > 0 {
      RenderDropsLastRows(s, bookmarks);
    }
  }

  lemma RenderDropsLastRows(s: State, bookmarks: seq<ItemData>)
    requires Emptied(s) && !IsRoot(CurNavHistory(s.navHistory)) && |bookmarks| > 0
    ensures var r := Render(s, bookmarks);
            && RowShows(r, 0, BackButtonData(CurNavHistory(s.navHistory)))
            && ShowsAll(r, bookmarks[..|bookmarks| - 1], 1)
  {
    var rows := RowsFor(CurNavHistory(s.navHistory), bookmarks)[..|bookmarks|];
    var r := FillRows(s, rows);
    assert Render(s, bookmarks) == r;
    FillRowsShows(s, rows);
    assert RowShows(r, 0, rows[0]);
    var init := bookmarks[..|bookmarks| - 1];
    forall k | 0 <= k < |init|
      ensures RowShows(r, k + 1, init[k])
    {
      assert RowShows(r, k + 1, rows[k + 1]);
    }
  }

  /** A sub-folder holding one bookmark: `render` as written shows only the
      back button and never the bookmark. */
  lemma RenderHidesOnlyBookmark(s: State, b: ItemData)
    requires Emptied(s) && !IsRoot(CurNavHistory(s.navHistory)) && b != BackButtonData(CurNavHistory(s.navHistory))
    ensures var r := Render(s, [b]);
            && r.listItemMap.Keys == {0}
            && RowShows(r, 0, BackButtonData(CurNavHistory(s.navHistory)))
            && forall k | k in r.listItemMap :: !RowShows(r, k, b)
  {
    RenderDropsLast(s, [b]);
  }

  /** `render` corrected: every bookmark gets a row, after the back button in
      a sub-folder, and the rows are the window 0 .. n-1. */
  lemma RenderCorrectedShowsAll(s: State, bookmarks: seq<ItemData>)
    requires Emptied(s)
    ensures var r := RenderCorrected(s, bookmarks);
            var nav := CurNavHistory(s.navHistory);
            var back := if IsRoot(nav) then 0 else 1;
            && Wf(r) && Windowed(r)
            && r.listIndexEndAt == |bookmarks| + back - 1
            && (back == 1 ==> RowShows(r, 0, BackButtonData(nav)))
            && ShowsAll(r, bookmarks, back)
  {
    var rows := RowsFor(CurNavHistory(s.navHistory), bookmarks);
    assert RenderCorrected(s, bookmarks) == FillRows(s, rows);
    FillRowsWf(s, rows);
    RenderCorrectedRows(s, bookmarks);
  }

  lemma RenderCorrectedRows(s: State, bookmarks: seq<ItemData>)
    requires Emptied(s)
    ensures var r := RenderCorrected(s, bookmarks);
            var nav := CurNavHistory(s.navHistory);
            var back := if IsRoot(nav) then 0 else 1;
            && (back == 1 ==> RowShows(r, 0, BackButtonData(nav)))
            && ShowsAll(r, bookmarks, back)
  {
    var nav := CurNavHistory(s.navHistory);
    var rows := RowsFor(nav, bookmarks);
    var back := if IsRoot(nav) then 0 else 1;
    var r := FillRows(s, rows);
    assert RenderCorrected(s, bookmarks) == r;
    FillRowsShows(s, rows);
    if back == 1 {
      assert RowShows(r, 0, rows[0]);
    }
    forall k | 0 <= k < |bookmarks|
      ensures RowShows(r, k + back, bookmarks[k])
    {
      assert RowShows(r, k + back, rows[k + back]);
    }
  }

  /** `render` takes elements from the pool before creating any, so after a
      reset it never holds more elements than the larger of what it had and
      the rows it places: |bookmarks| as written, one more in a sub-folder
      when corrected. */
  lemma RenderElementCount(s: State, bookmarks: seq<ItemData>)
    requires Emptied(s)
    ensures var n := |bookmarks|;
            Render(s, bookmarks).listItemRenderNum ==
              if n <= s.listItemRenderNum then s.listItemRenderNum else n
    ensures var n := |RowsFor(CurNavHistory(s.navHistory), bookmarks)|;
            RenderCorrected(s, bookmarks).listItemRenderNum ==
              if n <= s.listItemRenderNum then s.listItemRenderNum else n
  {
    Budget(s);
  }

  // ---------------------------------------------------------------------
  // navigation

  /** The navigation stack: the folder pushed last is the current one, and
      popping it gives back the stack before the push; an empty stack has
      no current folder. */
  lemma HistoryPushPop(history: seq<string>, folderId: string)
    ensures CurNavHistory(history + [folderId]) == Str(folderId)
    ensures Pop(history + [folderId]) == history
    ensures CurNavHistory(history).Null? <==> history == []
  {
    assert (history + [folderId])[..|history|] == history;
  }

  /** Opening the list and receiving the root folder's bookmarks: the root
      is the current folder and every bookmark has its row. */
  lemma OpenShowsRoot(s: State, bookmarks: seq<ItemData>)
    requires Wf(s)
    ensures var r := OpenLoaded(Open(s), bookmarks);
            && Wf(r) && Windowed(r) && r.shown
            && r.navHistory == s.navHistory + [ROOT_FOLDER] && r.navState == Str(ROOT_FOLDER)
            && r.listIndexEndAt == |bookmarks| - 1
            && ShowsAll(r, bookmarks, 0)
  {
    var o := Open(s);
    ResetEmpties(s);
    var s1 := o.(navHistory := o.navHistory + [ROOT_FOLDER]);
    SameRowsKeep(Reset(s), s1);
    RenderAtRoot(s1, bookmarks);
    RenderCorrectedShowsAll(s1, bookmarks);
    var s2 := Render(s1, bookmarks);
    var r := OpenLoaded(o, bookmarks);
    OpenLoadedRows(o, bookmarks);
    SameRowsKeep(s2, r);
    SameRowsShow(s2, r, bookmarks, 0);
  }

  /** The `open` callback touches the rows only through `render`. */
  lemma OpenLoadedRows(s: State, bookmarks: seq<ItemData>)
    ensures SameRows(Render(s.(navHistory := s.navHistory + [ROOT_FOLDER]), bookmarks),
                     OpenLoaded(s, bookmarks))
  {
  }

  /** The rows of sub-folder `folderId` arriving in an emptied list, as
      written: the folder is pushed on the history; unless the folder is
      empty, row 0 is the back button naming it and every bookmark but the
      last has the row after its position. An empty folder gets no row. */
  lemma FolderShows(a: State, folderId: string, bookmarks: seq<ItemData>)
    requires Emptied(a) && folderId != ROOT_FOLDER
    ensures var r := FolderLoaded(a, folderId, bookmarks).state;
            var n := |bookmarks|;
            && Wf(r) && Windowed(r)
            && r.navHistory == a.navHistory + [folderId] && r.navState == Str(folderId)
            && r.listIndexEndAt == n - 1
            && (n == 0 ==> r.listItemMap == map[])
            && (n > 0 ==>
                  && RowShows(r, 0, BackButtonData(Str(folderId)))
                  && ShowsAll(r, bookmarks[..n - 1], 1)
                  && n !in r.listItemMap)
            && (n <= 1 ==> r.focusIndex == a.focusIndex)
            && (n == 1 ==> r.log == a.log + [FocusItem(r.listItemMap[0])])
            && (n > 1 ==> r.focusIndex == 1 && 1 in r.listItemMap && r.log == a.log + [FocusItem(r.listItemMap[1])])
  {
    var a1 := a.(navHistory := a.navHistory + [folderId]);
    RenderDropsLast(a1, bookmarks);
    var s2 := Render(a1, bookmarks);
    assert FolderLoaded(a, folderId, bookmarks) == FocusFirstRow(s2);
    FocusKeepsRows(s2);
    SameRowsKeep(s2, FocusFirstRow(s2).state);
    if |bookmarks| > 0 {
      SameRowsShow(s2, FocusFirstRow(s2).state, bookmarks[..|bookmarks| - 1], 1);
    }
  }

  /** The same with `render` corrected: row 0 is the back button and every
      bookmark has the row after its position. */
  lemma FolderShowsCorrected(a: State, folderId: string, bookmarks: seq<ItemData>)
    requires Emptied(a) && folderId != ROOT_FOLDER
    ensures var r := FolderLoadedCorrected(a, folderId, bookmarks).state;
            && Wf(r) && Windowed(r)
            && r.navHistory == a.navHistory + [folderId] && r.navState == Str(folderId)
            && RowShows(r, 0, BackButtonData(Str(folderId)))
            && ShowsAll(r, bookmarks, 1)
            && (|bookmarks| == 0 ==> r.focusIndex == a.focusIndex && r.log == a.log + [FocusItem(r.listItemMap[0])])
            && (|bookmarks| > 0 ==> r.focusIndex == 1 && 1 in r.listItemMap && r.log == a.log + [FocusItem(r.listItemMap[1])])
  {
    var a1 := a.(navHistory := a.navHistory + [folderId]);
    RenderCorrectedShowsAll(a1, bookmarks);
    var s2 := RenderCorrected(a1, bookmarks);
    assert FolderLoadedCorrected(a, folderId, bookmarks) == FocusFirstRow(s2);
    FocusKeepsRows(s2);
    SameRowsKeep(s2, FocusFirstRow(s2).state);
    SameRowsShow(s2, FocusFirstRow(s2).state, bookmarks, 1);
  }

  /** The folder callbacks at the root, with bookmarks arriving in an
      emptied list: row 0 is the first bookmark, and unless it is itself a
      back button the focus stays and row 0 is announced. */
  lemma ShowFolderFocusRoot(s: State, bookmarks: seq<ItemData>)
    requires Emptied(s) && IsRoot(CurNavHistory(s.navHistory)) && |bookmarks| > 0
    requires bookmarks[0].kind != Button
    ensures var t := ShowFolder(s, bookmarks).state;
            && RowShows(t, 0, bookmarks[0])
            && t.focusIndex == s.focusIndex && t.log == s.log + [FocusItem(t.listItemMap[0])]
  {
    RenderAtRoot(s, bookmarks);
    RenderCorrectedShowsAll(s, bookmarks);
    var s2 := Render(s, bookmarks);
    assert RowShows(s2, 0, bookmarks[0]);
    assert ShowFolder(s, bookmarks) == FocusFirstRow(s2);
    FocusKeepsRows(s2);
  }

  /** The focus step of the folder callbacks touches no row. */
  lemma FocusKeepsRows(s: State)
    requires FocusFirstRow(s).Ok?
    ensures SameRows(s, FocusFirstRow(s).state)
  {
  }

  /** Selecting the row of sub-folder `folderId` empties the list and
      requests the folder's rows; `HandleKeyReturn` leaves an emptied list. */
  lemma EnterEmpties(s: State, target: ElemId)
    requires Wf(s) && target in s.elems
    requires s.elems[target].content.Shows? && s.elems[target].content.data.kind == Folder
    ensures var folderId := s.elems[target].content.data.folderId;
            var a := HandleKeyReturn(s, target);
            && Emptied(a) && a.navHistory == s.navHistory
            && a.log == s.log + [LoadDataByRange(0, FOLDER_RANGE, Str(folderId), AfterFolder(folderId))]
  {
    var folderId := s.elems[target].content.data.folderId;
    var a := HandleKeyReturn(s, target);
    ResetEmpties(s);
    assert a == Emit(Reset(s), LoadDataByRange(0, FOLDER_RANGE, Str(folderId), AfterFolder(folderId)));
    SameRowsKeep(Reset(s), a);
  }

  /** Entering sub-folder `folderId` from row `target`, as written: the
      folder's rows are requested, and once they arrive the folder is on
      top of the history and shown as `FolderShows` describes. */
  lemma EnterFolder(s: State, target: ElemId, bookmarks: seq<ItemData>)
    requires Wf(s) && target in s.elems
    requires s.elems[target].content.Shows? && s.elems[target].content.data.kind == Folder
    requires s.elems[target].content.data.folderId != ROOT_FOLDER
    ensures var folderId := s.elems[target].content.data.folderId;
            var a := HandleKeyReturn(s, target);
            var r := FolderLoaded(a, folderId, bookmarks).state;
            var n := |bookmarks|;
            && a.log == s.log + [LoadDataByRange(0, FOLDER_RANGE, Str(folderId), AfterFolder(folderId))]
            && Wf(r) && Windowed(r)
            && r.navHistory == s.navHistory + [folderId] && r.navState == Str(folderId)
            && (n == 0 ==> r.listItemMap == map[])
            && (n > 0 ==>
                  && RowShows(r, 0, BackButtonData(Str(folderId)))
                  && ShowsAll(r, bookmarks[..n - 1], 1)
                  && n !in r.listItemMap)
            && (n > 1 ==> r.focusIndex == 1 && 1 in r.listItemMap && r.log == a.log + [FocusItem(r.listItemMap[1])])
  {
    var folderId := s.elems[target].content.data.folderId;
    EnterEmpties(s, target);
    FolderShows(HandleKeyReturn(s, target), folderId, bookmarks);
  }

  /** The same with `render` corrected: the back button and every bookmark
      are shown. */
  lemma EnterFolderCorrected(s: State, target: ElemId, bookmarks: seq<ItemData>)
    requires Wf(s) && target in s.elems
    requires s.elems[target].content.Shows? && s.elems[target].content.data.kind == Folder
    requires s.elems[target].content.data.folderId != ROOT_FOLDER
    ensures var folderId := s.elems[target].content.data.folderId;
            var a := HandleKeyReturn(s, target);
            var r := FolderLoadedCorrected(a, folderId, bookmarks).state;
            && a.log == s.log + [LoadDataByRange(0, FOLDER_RANGE, Str(folderId), AfterFolder(folderId))]
            && Wf(r) && Windowed(r)
            && r.navHistory == s.navHistory + [folderId] && r.navState == Str(folderId)
            && RowShows(r, 0, BackButtonData(Str(folderId)))
            && ShowsAll(r, bookmarks, 1)
            && (|bookmarks| > 0 ==> r.focusIndex == 1 && 1 in r.listItemMap && r.log == a.log + [FocusItem(r.listItemMap[1])])
  {
    var folderId := s.elems[target].content.data.folderId;
    EnterEmpties(s, target);
    FolderShowsCorrected(HandleKeyReturn(s, target), folderId, bookmarks);
  }

  /** Pressing the back button of a folder entered from s, as written: the
      back button exists exactly when the folder has a bookmark, and then
      pressing it restores the history of s and requests the parent
      folder's rows. */
  lemma BackReturns(s: State, target: ElemId, bookmarks: seq<ItemData>)
    requires Wf(s) && target in s.elems
    requires s.elems[target].content.Shows? && s.elems[target].content.data.kind == Folder
    requires s.elems[target].content.data.folderId != ROOT_FOLDER
    ensures var folderId := s.elems[target].content.data.folderId;
            var r := FolderLoaded(HandleKeyReturn(s, target), folderId, bookmarks).state;
            && (0 in r.listItemMap <==> |bookmarks| > 0)
            && (|bookmarks| > 0 ==>
                  && r.listItemMap[0] in r.elems
                  && var b := HandleKeyReturn(r, r.listItemMap[0]);
                     && b.navHistory == s.navHistory
                     && b.listItemMap == map[]
                     && b.log == r.log + [LoadDataByRange(0, FOLDER_RANGE, CurNavHistory(s.navHistory), AfterBack)])
  {
    var folderId := s.elems[target].content.data.folderId;
    EnterFolder(s, target, bookmarks);
    var r := FolderLoaded(HandleKeyReturn(s, target), folderId, bookmarks).state;
    if |bookmarks| > 0 {
      assert IsButtonElem(r.elems[r.listItemMap[0]]);
      assert Pop(r.navHistory) == s.navHistory;
    }
  }

  /** The same with `render` corrected: the back button is always there. */
  lemma BackReturnsCorrected(s: State, target: ElemId, bookmarks: seq<ItemData>)
    requires Wf(s) && target in s.elems
    requires s.elems[target].content.Shows? && s.elems[target].content.data.kind == Folder
    requires s.elems[target].content.data.folderId != ROOT_FOLDER
    ensures var folderId := s.elems[target].content.data.folderId;
            var r := FolderLoadedCorrected(HandleKeyReturn(s, target), folderId, bookmarks).state;
            && 0 in r.listItemMap && r.listItemMap[0] in r.elems
            && var b := HandleKeyReturn(r, r.listItemMap[0]);
               && b.navHistory == s.navHistory
               && b.listItemMap == map[]
               && b.log == r.log + [LoadDataByRange(0, FOLDER_RANGE, CurNavHistory(s.navHistory), AfterBack)]
  {
    var folderId := s.elems[target].content.data.folderId;
    EnterFolderCorrected(s, target, bookmarks);
    var r := FolderLoadedCorrected(HandleKeyReturn(s, target), folderId, bookmarks).state;
    assert IsButtonElem(r.elems[r.listItemMap[0]]);
    assert Pop(r.navHistory) == s.navHistory;
  }
}

=== FILE: bookmark_invariants.dfy ===
/** The bookkeeping invariants of the bookmark list and the operations
    that keep them. */
module BookmarkInvariants {
  import opened BookmarkState
  import opened BookmarkWindow

  // ---------------------------------------------------------------------
  // one element taken for one row

  /** Row i of s gets the element that `render` and `addItem` take for a
      new row: the last pooled one, else a new one. */
  function PlaceNext(s: State, d: ItemData, i: int): State
  {
    Place(Acquire(s).0, Acquire(s).1, d, i)
  }

  /** A mapped element is not blank, so it is never the one taken. */
  lemma TakenUnmapped(s: State)
    requires ElemsCreated(s) && MapPlaced(s) && PoolBlank(s)
    ensures Acquire(s).1 !in s.listItemMap.Values
    ensures Acquire(s).1 in s.elems ==> s.elems[Acquire(s).1].content.Blank?
  {
    var id := Acquire(s).1;
    forall k | k in s.listItemMap
      ensures s.listItemMap[k] != id
    {
      assert s.elems[s.listItemMap[k]].content.Shows?;
      if |s.initializedItems| > 0 {
        assert s.elems[s.initializedItems[|s.initializedItems| - 1]].content.Blank?;
      }
    }
  }

  lemma PlaceNextMapPlaced(s: State, d: ItemData, i: int)
    requires ElemsCreated(s) && MapPlaced(s) && PoolBlank(s)
    ensures MapPlaced(PlaceNext(s, d, i))
  {
    TakenUnmapped(s);
    var id := Acquire(s).1;
    forall k | k in s.listItemMap
      ensures s.listItemMap[k] != id
    {
      assert s.listItemMap[k] in s.listItemMap.Values;
    }
  }

  lemma PlaceNextPool(s: State, d: ItemData, i: int)
    requires ElemsCreated(s) && PoolBlank(s) && PoolDistinct(s) && BlankPooled(s)
    ensures var t := PlaceNext(s, d, i);
            PoolBlank(t) && PoolDistinct(t) && BlankPooled(t) && ElemsCreated(t)
  {
    var t := PlaceNext(s, d, i);
    var pool := s.initializedItems;
    var id := Acquire(s).1;
    if |pool| > 0 {
      assert t.initializedItems == pool[..|pool| - 1];
      forall k | 0 <= k < |t.initializedItems|
        ensures t.initializedItems[k] != id
      {
        assert pool[k] != pool[|pool| - 1];
      }
      forall x | x in t.elems && t.elems[x].content.Blank?
        ensures x in t.initializedItems
      {
        assert x != id && x in s.elems;
        var k :| 0 <= k < |pool| && pool[k] == x;
        assert k != |pool| - 1;
        assert t.initializedItems[k] == x;
      }
    }
  }

  lemma PlaceNextShownMapped(s: State, d: ItemData, i: int)
    requires ElemsCreated(s) && MapPlaced(s) && PoolBlank(s) && ShownMapped(s)
    requires i !in s.listItemMap
    ensures ShownMapped(PlaceNext(s, d, i))
  {
    TakenUnmapped(s);
  }

  /** Taking an element for a new row i keeps the structure; every other
      element and every other row is unchanged. */
  lemma PlaceNextWf(s: State, d: ItemData, i: int)
    requires Wf(s) && i !in s.listItemMap
    ensures var t := PlaceNext(s, d, i);
            && Wf(t)
            && (forall j | j in s.elems && j != Acquire(s).1 :: j in t.elems && t.elems[j] == s.elems[j])
            && (forall k | k in s.listItemMap :: k in t.listItemMap && t.listItemMap[k] == s.listItemMap[k])
            && Acquire(s).1 !in s.listItemMap.Values
  {
    PlaceNextMapPlaced(s, d, i);
    PlaceNextPool(s, d, i);
    PlaceNextShownMapped(s, d, i);
    TakenUnmapped(s);
  }

  /** Moving the element of row k to a new row i keeps the structure. */
  lemma RelocateWf(s: State, k: int, d: ItemData, i: int)
    requires Wf(s) && k in s.listItemMap && i !in s.listItemMap
    ensures var id := s.listItemMap[k];
            var t := Place(s.(listItemMap := s.listItemMap - {k}), id, d, i);
            && Wf(t)
            && (forall j | j in s.elems && j != id :: j in t.elems && t.elems[j] == s.elems[j])
  {
    var id := s.listItemMap[k];
    var t := Place(s.(listItemMap := s.listItemMap - {k}), id, d, i);
    forall j | j in s.listItemMap && j != k
      ensures s.listItemMap[j] != id
    {
      assert s.elems[s.listItemMap[j]].index == j;
    }
    forall x | x in t.elems && t.elems[x].content.Shows?
      ensures t.elems[x].index in t.listItemMap && t.listItemMap[t.elems[x].index] == x
    {
      if x != id {
        assert s.elems[x].index != k;
      }
    }
  }

  // ---------------------------------------------------------------------
  // reset and render

  /** `reset` leaves every element blank. */
  lemma ResetBlanks(s: State)
    requires MapPlaced(s) && ShownMapped(s)
    ensures forall id | id in Reset(s).elems :: Reset(s).elems[id].content.Blank?
  {
  }

  lemma ResetPoolInTable(s: State)
    requires MapPlaced(s) && PoolBlank(s)
    ensures forall j | 0 <= j < |Reset(s).initializedItems| :: Reset(s).initializedItems[j] in Reset(s).elems
  {
    var r := Reset(s);
    var released := InKeyOrder(s.listItemMap);
    forall j | 0 <= j < |r.initializedItems| ensures r.initializedItems[j] in r.elems {
      AppendIndex(s.initializedItems, released, j);
      if j >= |s.initializedItems| {
        assert released[j - |s.initializedItems|] in released;
      }
    }
  }

  lemma ResetPoolBlank(s: State)
    requires MapPlaced(s) && PoolBlank(s) && ShownMapped(s)
    ensures PoolBlank(Reset(s))
  {
    ResetBlanks(s);
    ResetPoolInTable(s);
  }

  lemma ResetBlankPooled(s: State)
    requires BlankPooled(s)
    ensures BlankPooled(Reset(s))
  {
    var r := Reset(s);
    var m := s.listItemMap;
    var released := InKeyOrder(m);
    forall id | id in r.elems && r.elems[id].content.Blank?
      ensures id in r.initializedItems
    {
      AppendContains(s.initializedItems, released, id);
      if id in m.Values {
        var k := ValueKey(m, id);
        assert id in released;
      }
    }
  }

  lemma ResetCreated(s: State)
    requires ElemsCreated(s) && MapPlaced(s)
    ensures ElemsCreated(Reset(s))
  {
    forall k | k in s.listItemMap
      ensures s.listItemMap[k] in s.elems
    {
    }
  }

  lemma ResetPoolDistinct(s: State)
    requires Wf(s)
    ensures PoolDistinct(Reset(s))
  {
    var r := Reset(s);
    forall a, b | 0 <= a < b < |r.initializedItems|
      ensures r.initializedItems[a] != r.initializedItems[b]
    {
      ReleasedDistinct(s, a, b);
    }
  }

  /** `reset` keeps the structure, with every element blank and pooled. */
  lemma ResetWf(s: State)
    requires Wf(s)
    ensures Wf(Reset(s))
    ensures forall id | id in Reset(s).elems :: Reset(s).elems[id].content.Blank?
  {
    ResetBlanks(s);
    ResetPoolBlank(s);
    ResetBlankPooled(s);
    ResetCreated(s);
    ResetPoolDistinct(s);
  }

  lemma ReleasedDistinct(s: State, a: int, b: int)
    requires Wf(s)
    requires 0 <= a < b < |Reset(s).initializedItems|
    ensures Reset(s).initializedItems[a] != Reset(s).initializedItems[b]
  {
    var m := s.listItemMap;
    var p := |s.initializedItems|;
    var pool := Reset(s).initializedItems;
    var released := InKeyOrder(m);
    AppendIndex(s.initializedItems, released, a);
    AppendIndex(s.initializedItems, released, b);
    if b < p {
    } else if a < p {
      assert released[b - p] in released;
      var k := ValueKey(m, pool[b]);
      assert s.elems[m[k]].content.Shows?;
      assert s.elems[pool[a]].content.Blank?;
    } else {
      MapInjective(s);
    }
  }

  /** The loop of `render` keeps the structure. */
  lemma {:induction false} PlaceRowsWf(s: State, rows: seq<ItemData>, i: nat)
    requires i <= |rows| && Wf(s)
    requires forall k | i <= k < |rows| :: k !in s.listItemMap
    ensures Wf(PlaceRows(s, rows, i))
    decreases |rows| - i
  {
    if i < |rows| {
      PlaceNextWf(s, rows[i], i);
      PlaceRowsWf(PlaceNext(s, rows[i], i), rows, i + 1);
    }
  }

  /** Rows 0 .. n-1 are exactly the mapped rows, and row j shows rows[j]. */
  ghost predicate ShowsPrefix(s: State, rows: seq<ItemData>, n: nat)
    requires n <= |rows|
  {
    && (forall k :: k in s.listItemMap <==> 0 <= k < n)
    && (forall j | 0 <= j < n ::
          s.listItemMap[j] in s.elems && s.elems[s.listItemMap[j]].content == Shows(rows[j]))
  }

  /** One step of the loop of `render` extends the shown prefix by row i. */
  lemma PlaceNextShows(s: State, rows: seq<ItemData>, i: nat)
    requires i < |rows| && ElemsCreated(s) && MapPlaced(s) && PoolBlank(s)
    requires ShowsPrefix(s, rows, i)
    ensures ShowsPrefix(PlaceNext(s, rows[i], i), rows, i + 1)
  {
    var t := PlaceNext(s, rows[i], i);
    TakenUnmapped(s);
    forall j | 0 <= j < i + 1
      ensures t.listItemMap[j] in t.elems && t.elems[t.listItemMap[j]].content == Shows(rows[j])
    {
      if j < i {
        assert s.listItemMap[j] in s.listItemMap.Values;
      }
    }
  }

  /** The loop of `render` shows rows[j] at row j. */
  lemma {:induction false} PlaceRowsShows(s: State, rows: seq<ItemData>, i: nat)
    requires i <= |rows| && Wf(s) && ShowsPrefix(s, rows, i)
    ensures ShowsPrefix(PlaceRows(s, rows, i), rows, |rows|)
    decreases |rows| - i
  {
    if i < |rows| {
      var t := PlaceNext(s, rows[i], i);
      assert PlaceRows(s, rows, i) == PlaceRows(t, rows, i + 1);
      PlaceNextShows(s, rows, i);
      PlaceNextWf(s, rows[i], i);
      PlaceRowsShows(t, rows, i + 1);
    }
  }

  /** Row k of s shows d. */
  ghost predicate RowShows(s: State, k: int, d: ItemData)
  {
    k in s.listItemMap && s.listItemMap[k] in s.elems
    && s.elems[s.listItemMap[k]].content == Shows(d)
  }

  /** Item k of ds is shown at row k + from, for every k. */
  ghost predicate ShowsAll(s: State, ds: seq<ItemData>, from: int)
  {
    forall k | 0 <= k < |ds| :: RowShows(s, k + from, ds[k])
  }

  /** Rendering into an emptied list keeps the structure, and the rows are
      exactly 0 .. |rows|-1. */
  lemma FillRowsWf(s: State, rows: seq<ItemData>)
    requires Wf(s) && s.listItemMap == map[] && s.listIndexStartAt == 0
    ensures Wf(FillRows(s, rows)) && Windowed(FillRows(s, rows))
  {
    PlaceRowsWf(s.(navState := CurNavHistory(s.navHistory)), rows, 0);
  }

  /** Rendering into an emptied list shows rows[j] at row j. */
  lemma FillRowsShows(s: State, rows: seq<ItemData>)
    requires Wf(s) && s.listItemMap == map[] && s.listIndexStartAt == 0
    ensures ShowsAll(FillRows(s, rows), rows, 0)
  {
    var s0 := s.(navState := CurNavHistory(s.navHistory));
    PlaceRowsShows(s0, rows, 0);
    assert ShowsPrefix(PlaceRows(s0, rows, 0), rows, |rows|);
  }

  // ---------------------------------------------------------------------
  // addItem

  /** `addItem` of a row outside the window keeps the structure. */
  lemma AddItemWf(s: State, index: int, d: ItemData)
    requires Wf(s) && index !in s.listItemMap
    requires !(s.listIndexStartAt <= index <= s.listIndexEndAt)
    requires AddItem(s, index, Some(d)).Ok?
    ensures Wf(AddItem(s, index, Some(d)).state)
  {
    var below := index < s.listIndexStartAt;
    if !MustEvict(s) {
      PlaceNextWf(s, d, index);
    } else {
      var far := if below then s.listIndexEndAt else s.listIndexStartAt;
      RelocateWf(s, far, d, index);
    }
  }

  /** Adding the row just before or just after a window keeps the mapped
      rows a contiguous window; when an element has to be evicted from a
      non-empty window the add cannot fail. */
  lemma AddItemWindowed(s: State, index: int, d: ItemData)
    requires Windowed(s)
    requires index == s.listIndexStartAt - 1 || index == s.listIndexEndAt + 1
    requires MustEvict(s) ==> s.listIndexStartAt <= s.listIndexEndAt
    ensures AddItem(s, index, Some(d)).Ok?
    ensures Windowed(AddItem(s, index, Some(d)).state)
  {
    var t := AddItem(s, index, Some(d)).state;
    assert s.listIndexStartAt <= s.listIndexEndAt ==> s.listIndexEndAt in s.listItemMap && s.listIndexStartAt in s.listItemMap;
  }

  // ---------------------------------------------------------------------
  // the element budget

  /** A set of integers that is exactly a range has the range's size. */
  lemma {:induction false} RangeCard(ks: set<int>, lo: int, hi: int)
    requires lo <= hi
    requires forall x :: x in ks <==> lo <= x < hi
    ensures |ks| == hi - lo
    decreases hi - lo
  {
    if lo < hi {
      RangeCard(ks - {hi - 1}, lo, hi - 1);
    } else {
      forall x
        ensures x !in ks
      {
      }
      assert ks == {};
    }
  }

  /** The elements of a sequence without repeats, as a set. */
  function Elements(xs: seq<ElemId>): (r: set<ElemId>)
    ensures forall x :: x in r <==> x in xs
  {
    set x | x in xs
  }

  lemma {:induction false} DistinctCard(xs: seq<ElemId>)
    requires forall a, b | 0 <= a < b < |xs| :: xs[a] != xs[b]
    ensures |Elements(xs)| == |xs|
  {
    if xs != [] {
      var last := xs[|xs| - 1];
      var init := xs[..|xs| - 1];
      DistinctCard(init);
      assert Elements(xs) == Elements(init) + {last};
      assert last !in Elements(init);
    }
  }

  /** A map without shared elements has as many elements as keys. */
  lemma {:induction false} InjectiveCard(m: map<int, ElemId>)
    requires Injective(m)
    ensures |m.Values| == |m.Keys|
    decreases |m.Keys|
  {
    if m != map[] {
      var k := MinKey(m.Keys);
      var m' := m - {k};
      assert m'.Values == m.Values - {m[k]} by {
        forall id | id in m.Values
          ensures id in m'.Values <==> id != m[k]
        {
          var j := ValueKey(m, id);
          if id != m[k] {
            assert j != k && j in m';
          }
        }
      }
      assert m'.Keys == m.Keys - {k};
      InjectiveCard(m');
    }
  }

  /** No two rows share an element. */
  lemma MapInjective(s: State)
    requires MapPlaced(s)
    ensures Injective(s.listItemMap)
  {
    var m := s.listItemMap;
    forall x, y | x in m && y in m && x != y
      ensures m[x] != m[y]
    {
      assert s.elems[m[x]].index == x;
    }
  }

  /** The element table is split between the pool and the map. */
  lemma TableSplit(s: State)
    requires Wf(s)
    ensures s.elems.Keys == Elements(s.initializedItems) + s.listItemMap.Values
    ensures Elements(s.initializedItems) * s.listItemMap.Values == {}
  {
    var pooled := Elements(s.initializedItems);
    var m := s.listItemMap;
    forall id | id in s.elems
      ensures id in pooled || id in m.Values
    {
      if s.elems[id].content.Shows? {
        assert m[s.elems[id].index] == id;
      }
    }
    forall k | k in m
      ensures m[k] in s.elems && m[k] !in pooled
    {
      assert s.elems[m[k]].content.Shows?;
    }
  }

  /** Every element created is either pooled or mapped, never both, so the
      pool and the map together hold all listItemRenderNum elements. */
  lemma Budget(s: State)
    requires Wf(s)
    ensures |s.initializedItems| + |s.listItemMap| == s.listItemRenderNum
  {
    DistinctCard(s.initializedItems);
    MapInjective(s);
    InjectiveCard(s.listItemMap);
    TableSplit(s);
    RangeCard(s.elems.Keys, 0, s.listItemRenderNum);
  }

  /** In a window, the number of mapped rows is the window's length. */
  lemma WindowCard(s: State)
    requires Windowed(s)
    ensures |s.listItemMap| == s.listIndexEndAt - s.listIndexStartAt + 1
  {
    RangeCard(s.listItemMap.Keys, s.listIndexStartAt, s.listIndexEndAt + 1);
  }

  // ---------------------------------------------------------------------
  // removeFocusItem

  /** The elements the re-indexing loop from i moves: those of rows i+1
      through listIndexEndAt. */
  ghost function Moved(s: State, i: int): set<ElemId>
  {
    set j | j in s.listItemMap && i < j <= s.listIndexEndAt :: s.listItemMap[j]
  }

  /** The re-indexing loop, ending in t, neither creates nor drops an
      element. */
  lemma {:induction false} ShiftDownKeepsTable(s: State, i: int, t: State)
    requires ShiftDown(s, i) == Some(t)
    requires forall k | k in s.listItemMap :: s.listItemMap[k] in s.elems
    ensures t.elems.Keys == s.elems.Keys
    decreases s.listIndexEndAt - i
  {
    if i < s.listIndexEndAt {
      var s' := ShiftStep(s, i);
      assert ShiftDown(s', i + 1) == Some(t);
      ShiftDownKeepsTable(s', i + 1, t);
    }
  }

  /** One pass of the loop keeps what the rest of it needs: mapped
      elements in the table, and distinct elements behind the new
      position. */
  lemma ShiftStepReady(s: State, i: int)
    requires i < s.listIndexEndAt && i + 1 in s.listItemMap
    requires forall k | k in s.listItemMap :: s.listItemMap[k] in s.elems
    requires forall a, b | i < a < b && a in s.listItemMap && b in s.listItemMap ::
               s.listItemMap[a] != s.listItemMap[b]
    ensures var s' := ShiftStep(s, i);
            && (forall k | k in s'.listItemMap :: s'.listItemMap[k] in s'.elems)
            && (forall a, b | i + 1 < a < b && a in s'.listItemMap && b in s'.listItemMap ::
                  s'.listItemMap[a] != s'.listItemMap[b])
  {
    var s' := ShiftStep(s, i);
    assert forall k | k in s'.listItemMap && i + 1 < k :: k in s.listItemMap && s'.listItemMap[k] == s.listItemMap[k];
  }

  /** The element of one row the loop does not move stays as it was. */
  lemma {:induction false} ShiftDownOther(s: State, i: int, t: State, id: ElemId)
    requires ShiftDown(s, i) == Some(t)
    requires id in s.elems && id !in Moved(s, i)
    ensures id in t.elems && t.elems[id] == s.elems[id]
    decreases s.listIndexEndAt - i
  {
    if i < s.listIndexEndAt {
      var s' := ShiftStep(s, i);
      assert ShiftDown(s', i + 1) == Some(t);
      assert s.listItemMap[i + 1] in Moved(s, i);
      assert id !in Moved(s', i + 1) by {
        forall j | j in s'.listItemMap && i + 1 < j <= s.listIndexEndAt
          ensures s'.listItemMap[j] != id
        {
          assert s'.listItemMap[j] == s.listItemMap[j] && s.listItemMap[j] in Moved(s, i);
        }
      }
      ShiftDownOther(s', i + 1, t, id);
    }
  }

  /** The re-indexing loop from i, ending in t, leaves every element it
      does not move alone. */
  lemma ShiftDownOthers(s: State, i: int, t: State)
    requires ShiftDown(s, i) == Some(t)
    ensures forall id | id in s.elems && id !in Moved(s, i) :: id in t.elems && t.elems[id] == s.elems[id]
  {
    forall id | id in s.elems && id !in Moved(s, i)
      ensures id in t.elems && t.elems[id] == s.elems[id]
    {
      ShiftDownOther(s, i, t, id);
    }
  }

  /** The element of row j behind i ends at index j-1, one row height
      higher. */
  lemma {:induction false} ShiftDownElem(s: State, i: int, t: State, j: int)
    requires ShiftDown(s, i) == Some(t)
    requires forall k | k in s.listItemMap :: s.listItemMap[k] in s.elems
    requires forall a, b | i < a < b && a in s.listItemMap && b in s.listItemMap ::
               s.listItemMap[a] != s.listItemMap[b]
    requires i < j <= s.listIndexEndAt && j in s.listItemMap
    ensures var e := s.elems[s.listItemMap[j]];
            s.listItemMap[j] in t.elems && t.elems[s.listItemMap[j]] == Elem(e.content, j - 1, e.offset - LIST_ITEM_HEIGHT)
    decreases s.listIndexEndAt - i
  {
    var id := s.listItemMap[i + 1];
    var s' := ShiftStep(s, i);
    assert ShiftDown(s', i + 1) == Some(t);
    if j == i + 1 {
      assert id !in Moved(s', i + 1) by {
        forall k | k in s'.listItemMap && i + 1 < k <= s.listIndexEndAt
          ensures s'.listItemMap[k] != id
        {
          assert s'.listItemMap[k] == s.listItemMap[k];
        }
      }
      ShiftDownOther(s', i + 1, t, id);
    } else {
      assert s'.listItemMap[j] == s.listItemMap[j] != id;
      var e := s'.elems[s'.listItemMap[j]];
      assert t.elems[s'.listItemMap[j]] == Elem(e.content, j - 1, e.offset - LIST_ITEM_HEIGHT) by {
        ShiftStepReady(s, i);
        ShiftDownElem(s', i + 1, t, j);
      }
    }
  }

  /** The re-indexing loop, ending in t, gives the element of each row j
      behind i the index j-1 and lifts it by one row height. */
  lemma ShiftDownElems(s: State, i: int, t: State)
    requires ShiftDown(s, i) == Some(t)
    requires forall k | k in s.listItemMap :: s.listItemMap[k] in s.elems
    requires forall a, b | i < a < b && a in s.listItemMap && b in s.listItemMap ::
               s.listItemMap[a] != s.listItemMap[b]
    ensures forall j | i < j <= s.listIndexEndAt && j in s.listItemMap ::
              var e := s.elems[s.listItemMap[j]];
              s.listItemMap[j] in t.elems && t.elems[s.listItemMap[j]] == Elem(e.content, j - 1, e.offset - LIST_ITEM_HEIGHT)
  {
    forall j | i < j <= s.listIndexEndAt && j in s.listItemMap
      ensures var e := s.elems[s.listItemMap[j]];
              s.listItemMap[j] in t.elems && t.elems[s.listItemMap[j]] == Elem(e.content, j - 1, e.offset - LIST_ITEM_HEIGHT)
    {
      ShiftDownElem(s, i, t, j);
    }
  }

  /** `removeFocusItem` ends with the loop's elements and pool. */
  lemma RemoveVia(s: State)
    requires s.focusIndex in s.listItemMap && RemoveFocusItem(s).Ok?
    ensures ShiftDown(Blanked(s), s.focusIndex).Some?
    ensures var t := ShiftDown(Blanked(s), s.focusIndex).value;
            var r := RemoveFocusItem(s).state;
            r.elems == t.elems && r.initializedItems == t.initializedItems
  {
    var t := ShiftDown(Blanked(s), s.focusIndex).value;
    assert RemoveFocusItem(s) == Refocus(Trimmed(t));
  }

  /** The loop's input when removing the focused row: what it moves does
      not include the removed element, and the rows behind it share no
      element. */
  lemma BlankedReady(s: State)
    requires Wf(s) && s.focusIndex in s.listItemMap
    ensures var s1 := Blanked(s);
            && (forall k | k in s1.listItemMap :: s1.listItemMap[k] in s1.elems)
            && (forall a, b | s.focusIndex < a < b && a in s1.listItemMap && b in s1.listItemMap ::
                  s1.listItemMap[a] != s1.listItemMap[b])
            && s.listItemMap[s.focusIndex] !in Moved(s1, s.focusIndex)
  {
    MapInjective(s);
    var f := s.focusIndex;
    var m := s.listItemMap;
    assert m[f] !in Moved(Blanked(s), f) by {
      forall j | j in m && f < j <= s.listIndexEndAt
        ensures m[j] != m[f]
      {
      }
    }
  }

  /** The elements after the loop: the focused one blank and each one
      behind it moved up a row. */
  lemma RemoveElems(s: State)
    requires Wf(s) && s.focusIndex in s.listItemMap
    requires ShiftDown(Blanked(s), s.focusIndex).Some?
    ensures ShiftDown(Blanked(s), s.focusIndex).value.elems.Keys == s.elems.Keys
    ensures ShiftDown(Blanked(s), s.focusIndex).value.elems[s.listItemMap[s.focusIndex]] == BlankElem
    ensures var t := ShiftDown(Blanked(s), s.focusIndex).value;
            var m := s.listItemMap;
            forall j | s.focusIndex < j <= s.listIndexEndAt && j in m ::
              t.elems[m[j]] == Elem(s.elems[m[j]].content, j - 1, s.elems[m[j]].offset - LIST_ITEM_HEIGHT)
  {
    var s1 := Blanked(s);
    var f := s.focusIndex;
    var m := s.listItemMap;
    var t := ShiftDown(s1, f).value;
    BlankedReady(s);
    assert t.elems.Keys == s.elems.Keys by {
      ShiftDownKeepsTable(s1, f, t);
    }
    assert t.elems[m[f]] == BlankElem by {
      ShiftDownOther(s1, f, t, m[f]);
    }
    forall j | f < j <= s.listIndexEndAt && j in m
      ensures t.elems[m[j]] == Elem(s.elems[m[j]].content, j - 1, s.elems[m[j]].offset - LIST_ITEM_HEIGHT)
    {
      ShiftDownElem(s1, f, t, j);
    }
  }

  /** The elements after the loop that are neither the removed one nor
      behind it are as they were. */
  lemma RemoveElemsKept(s: State)
    requires Wf(s) && s.focusIndex in s.listItemMap
    requires ShiftDown(Blanked(s), s.focusIndex).Some?
    ensures var t := ShiftDown(Blanked(s), s.focusIndex).value;
            var m := s.listItemMap;
            forall k | k in m && k != s.focusIndex && !(s.focusIndex < k <= s.listIndexEndAt) ::
              m[k] in t.elems && t.elems[m[k]] == s.elems[m[k]]
    ensures var t := ShiftDown(Blanked(s), s.focusIndex).value;
            forall id | id in s.elems && id !in s.listItemMap.Values :: id in t.elems && t.elems[id] == s.elems[id]
  {
    var f := s.focusIndex;
    var m := s.listItemMap;
    var s1 := Blanked(s);
    MapInjective(s);
    BlankedReady(s);
    ShiftDownOthers(s1, f, ShiftDown(s1, f).value);
    forall k | k in m && k != f && !(f < k <= s.listIndexEndAt)
      ensures m[k] !in Moved(s1, f)
    {
      forall j | j in m && f < j <= s.listIndexEndAt
        ensures m[j] != m[k]
      {
      }
    }
    forall id | id in s.elems && id !in m.Values
      ensures id !in Moved(s1, f)
    {
      forall j | j in m && f < j <= s.listIndexEndAt
        ensures m[j] != id
      {
      }
    }
  }

  /** `removeFocusItem` on a window fails exactly when it removes the only
      row of a window that does not start at row 0: it then looks for the
      new last row just before the window. Otherwise the rows stay a window,
      one row shorter. */
  lemma RemoveWindowed(s: State)
    requires Windowed(s) && s.focusIndex in s.listItemMap
    ensures RemoveFocusItem(s).Thrown? <==> s.listIndexStartAt == s.listIndexEndAt != 0
    ensures RemoveFocusItem(s).Ok? ==>
              && Windowed(RemoveFocusItem(s).state)
              && RemoveFocusItem(s).state.listIndexEndAt == s.listIndexEndAt - 1
  {
    RemoveThrows(s);
    if RemoveFocusItem(s).Thrown? {
      if exists j :: s.focusIndex < j <= s.listIndexEndAt && j !in s.listItemMap {
        assert false;
      }
    } else {
      RemoveRows(s);
    }
  }

  /** The elements after `removeFocusItem`. */
  lemma RemoveElemFacts(s: State)
    requires Wf(s) && s.focusIndex in s.listItemMap && RemoveFocusItem(s).Ok?
    ensures var r := RemoveFocusItem(s).state;
            var f := s.focusIndex;
            var m := s.listItemMap;
            && r.elems.Keys == s.elems.Keys
            && r.initializedItems == s.initializedItems + [m[f]]
            && r.elems[m[f]] == BlankElem
            && (forall j | f < j <= s.listIndexEndAt && j in m ::
                  r.elems[m[j]] == Elem(s.elems[m[j]].content, j - 1, s.elems[m[j]].offset - LIST_ITEM_HEIGHT))
            && (forall k | k in m && k != f && !(f < k <= s.listIndexEndAt) :: r.elems[m[k]] == s.elems[m[k]])
            && (forall id | id in s.elems && id !in m.Values :: r.elems[id] == s.elems[id])
  {
    RemoveVia(s);
    RemoveElems(s);
    RemoveElemsKept(s);
  }

  /** The rows after `removeFocusItem` on a window. */
  lemma RemoveRowFacts(s: State)
    requires Windowed(s) && s.focusIndex in s.listItemMap && RemoveFocusItem(s).Ok?
    ensures var r := RemoveFocusItem(s).state;
            var f := s.focusIndex;
            var m := s.listItemMap;
            && r.listItemRenderNum == s.listItemRenderNum
            && (forall j | f < j <= s.listIndexEndAt :: j in m)
            && (forall k {:trigger k in r.listItemMap} :: k in r.listItemMap <==> s.listIndexStartAt <= k < s.listIndexEndAt)
            && (forall k {:trigger r.listItemMap[k]} | s.listIndexStartAt <= k < f :: r.listItemMap[k] == m[k])
            && (forall k {:trigger r.listItemMap[k]} | f <= k < s.listIndexEndAt :: r.listItemMap[k] == m[k + 1])
  {
    RemoveWindowed(s);
    RemoveRows(s);
  }

  lemma RemoveMapPlaced(s: State)
    requires Wf(s) && Windowed(s) && s.focusIndex in s.listItemMap && RemoveFocusItem(s).Ok?
    ensures MapPlaced(RemoveFocusItem(s).state)
  {
    RemoveElemFacts(s);
    RemoveRowFacts(s);
    var r := RemoveFocusItem(s).state;
    var m := s.listItemMap;
    forall k | k in r.listItemMap
      ensures r.listItemMap[k] in r.elems && PlacedAt(r.elems[r.listItemMap[k]], k)
    {
      if k >= s.focusIndex {
        assert k + 1 in m && PlacedAt(s.elems[m[k + 1]], k + 1);
      } else {
        assert k in m && PlacedAt(s.elems[m[k]], k);
      }
    }
  }

  lemma RemovePool(s: State)
    requires Wf(s) && s.focusIndex in s.listItemMap && RemoveFocusItem(s).Ok?
    ensures PoolBlank(RemoveFocusItem(s).state) && PoolDistinct(RemoveFocusItem(s).state)
  {
    RemoveElemFacts(s);
    var r := RemoveFocusItem(s).state;
    var m := s.listItemMap;
    var pool := s.initializedItems;
    forall k | 0 <= k < |pool|
      ensures pool[k] !in m.Values
    {
      assert s.elems[pool[k]].content.Blank?;
    }
  }

  lemma RemoveBlankPooled(s: State)
    requires Wf(s) && Windowed(s) && s.focusIndex in s.listItemMap && RemoveFocusItem(s).Ok?
    ensures BlankPooled(RemoveFocusItem(s).state)
  {
    RemoveElemFacts(s);
    RemoveRowFacts(s);
    var r := RemoveFocusItem(s).state;
    var m := s.listItemMap;
    forall k | k in m && k != s.focusIndex
      ensures r.elems[m[k]].content.Shows?
    {
      assert s.elems[m[k]].content.Shows?;
    }
  }

  /** A shown element after `removeFocusItem` was mapped before, at a row
      other than the focused one. */
  lemma RemoveShownKey(s: State, id: ElemId) returns (k: int)
    requires Wf(s) && s.focusIndex in s.listItemMap && RemoveFocusItem(s).Ok?
    requires id in RemoveFocusItem(s).state.elems && RemoveFocusItem(s).state.elems[id].content.Shows?
    ensures k in s.listItemMap && s.listItemMap[k] == id && k != s.focusIndex
    ensures s.elems[id].index == k
  {
    var r := RemoveFocusItem(s).state;
    var m := s.listItemMap;
    RemoveElemFacts(s);
    // An element mapped nowhere keeps its content, and a shown one is mapped.
    if id !in m.Values {
      assert false;
    }
    k := ValueKey(m, id);
  }

  /** One shown element after `removeFocusItem` is the mapped element of
      its own index. */
  lemma RemoveShownOne(s: State, id: ElemId)
    requires Wf(s) && Windowed(s) && s.focusIndex in s.listItemMap && RemoveFocusItem(s).Ok?
    requires id in RemoveFocusItem(s).state.elems && RemoveFocusItem(s).state.elems[id].content.Shows?
    ensures var r := RemoveFocusItem(s).state;
            r.elems[id].index in r.listItemMap && r.listItemMap[r.elems[id].index] == id
  {
    var r := RemoveFocusItem(s).state;
    var m := s.listItemMap;
    var f := s.focusIndex;
    var k := RemoveShownKey(s, id);
    if k < f {
      assert r.elems[id] == s.elems[id] by {
        RemoveElemFacts(s);
      }
      assert k in r.listItemMap && r.listItemMap[k] == m[k] by {
        RemoveRowFacts(s);
      }
    } else {
      assert r.elems[id].index == k - 1 by {
        RemoveElemFacts(s);
        RemoveRowFacts(s);
      }
      assert k - 1 in r.listItemMap && r.listItemMap[k - 1] == m[k] by {
        RemoveRowFacts(s);
      }
    }
  }

  /** After `removeFocusItem` on a window, every shown element sits at a
      mapped row that holds it. */
  lemma RemoveShownMapped(s: State)
    requires Wf(s) && Windowed(s) && s.focusIndex in s.listItemMap && RemoveFocusItem(s).Ok?
    ensures ShownMapped(RemoveFocusItem(s).state)
  {
    var r := RemoveFocusItem(s).state;
    forall id | id in r.elems && r.elems[id].content.Shows?
      ensures r.elems[id].index in r.listItemMap && r.listItemMap[r.elems[id].index] == id
    {
      RemoveShownOne(s, id);
    }
  }

  /** `removeFocusItem` on a window keeps the structure. */
  lemma RemoveWf(s: State)
    requires Wf(s) && Windowed(s) && s.focusIndex in s.listItemMap && RemoveFocusItem(s).Ok?
    ensures Wf(RemoveFocusItem(s).state)
  {
    RemoveElemFacts(s);
    RemoveMapPlaced(s);
    RemovePool(s);
    RemoveBlankPooled(s);
    RemoveShownMapped(s);
  }
}

=== FILE: bookmark_moves.dfy ===
/** What moving the focus does to the structure and the window. */
module BookmarkMoves {
  import opened BookmarkState
  import opened BookmarkWindow
  import opened BookmarkFocus
  import opened BookmarkInvariants

  /** t has the elements, rows, pool and window of s. */
  predicate SameRows(s: State, t: State)
  {
    && t.elems == s.elems && t.listItemMap == s.listItemMap
    && t.initializedItems == s.initializedItems && t.listItemRenderNum == s.listItemRenderNum
    && t.listIndexStartAt == s.listIndexStartAt && t.listIndexEndAt == s.listIndexEndAt
  }

  /** The structure and the window depend on nothing but the rows. */
  lemma SameRowsKeep(s: State, t: State)
    requires SameRows(s, t)
    ensures Wf(s) ==> Wf(t)
    ensures Windowed(s) <==> Windowed(t)
  {
  }

  /** Adding the back button when it is due, with f one of the rows of a
      window: the add cannot fail (an evicted last row is never f, since
      a full list holds more rows than the back button's distance from f),
      row f keeps its element, and the rows stay a window exactly when the
      window started at row 1. */
  lemma BackButtonAdd(s: State, f: int)
    requires Wf(s) && Windowed(s) && s.listIndexStartAt <= f <= s.listIndexEndAt
    requires AddsBackButton(s, f)
    ensures var a := AddItem(s, 0, Some(BackButtonData(s.navState)));
            && a.Ok? && Wf(a.state) && f in a.state.listItemMap
            && a.state.listIndexStartAt == 0 && a.state.listIndexEndAt >= f
            && (Windowed(a.state) <==> s.listIndexStartAt == 1)
  {
    var d := BackButtonData(s.navState);
    assert 0 !in s.listItemMap;
    if MustEvict(s) {
      Budget(s);
      WindowCard(s);
    }
    assert s.listIndexEndAt in s.listItemMap;
    AddItemWf(s, 0, d);
    var t := AddItem(s, 0, Some(d)).state;
    if s.listIndexStartAt == 1 {
      AddItemWindowed(s, 0, d);
    } else {
      assert 0 in t.listItemMap && 1 !in t.listItemMap;
    }
  }

  /** `loadItemBuffer(f)` for a row f of a window: it cannot fail, row f
      keeps its element, the structure holds, and the rows stay a window
      unless a back button is added away from the window's first row. */
  lemma BufferKeeps(s: State, f: int)
    requires Wf(s) && Windowed(s) && s.listIndexStartAt <= f <= s.listIndexEndAt
    ensures LoadItemBuffer(s, f).Ok?
    ensures var t := LoadItemBuffer(s, f).state;
            && Wf(t) && f in t.listItemMap && t.listItemMap[f] == s.listItemMap[f]
            && t.listIndexEndAt >= f && t.listIndexStartAt <= f
            && (Windowed(t) <==> !AddsBackButton(s, f) || s.listIndexStartAt == 1)
  {
    assert s.listIndexEndAt in s.listItemMap;
    BufferFrame(s, f);
    var t := LoadItemBuffer(s, f).state;
    if AddsBackButton(s, f) {
      BackButtonAdd(s, f);
      BufferBackKeeps(s, f);
      SameRowsKeep(AddItem(s, 0, Some(BackButtonData(s.navState))).state, t);
    } else {
      SameRowsKeep(s, t);
    }
  }

  /** `loadItemBuffer` touches the rows only through the back button. */
  lemma BufferFrame(s: State, f: int)
    requires LoadItemBuffer(s, f).Ok?
    ensures AddsBackButton(s, f) ==> AddItem(s, 0, Some(BackButtonData(s.navState))).Ok?
    ensures AddsBackButton(s, f) ==>
              SameRows(AddItem(s, 0, Some(BackButtonData(s.navState))).state, LoadItemBuffer(s, f).state)
    ensures !AddsBackButton(s, f) ==> SameRows(s, LoadItemBuffer(s, f).state)
  {
  }

  /** Moving the focus down from a row of a window that is not its last row
      cannot fail, keeps the structure and lands on a row of the window;
      the rows stay a window unless a back button is added away from the
      window's first row. */
  lemma MoveDownKeeps(s: State)
    requires Wf(s) && Windowed(s) && s.listIndexStartAt <= s.focusIndex < s.listIndexEndAt
    ensures MoveFocusIndexDown(s).Ok?
    ensures var t := MoveFocusIndexDown(s).state;
            && Wf(t) && FocusInWindow(t) && t.focusIndex in t.listItemMap
            && t.listItemMap[t.focusIndex] == s.listItemMap[t.focusIndex]
            && (Windowed(t) <==> !AddsBackButton(s, s.focusIndex + 1) || s.listIndexStartAt == 1)
  {
    var f := s.focusIndex + 1;
    var s1 := StepDown(s);
    SameRowsKeep(s, s1);
    assert AddsBackButton(s1, f) == AddsBackButton(s, f);
    MoveVia(s1, f);
    assert MoveFocusIndexDown(s) == FocusCurrent(LoadItemBuffer(s1, f).state);
  }

  /** Moving the focus up from a row of a window that is not its first row:
      the same guarantees as moving down. */
  lemma MoveUpKeeps(s: State)
    requires Wf(s) && Windowed(s) && s.listIndexStartAt < s.focusIndex <= s.listIndexEndAt
    ensures MoveFocusIndexUp(s).Ok?
    ensures var t := MoveFocusIndexUp(s).state;
            && Wf(t) && FocusInWindow(t) && t.focusIndex in t.listItemMap
            && t.listItemMap[t.focusIndex] == s.listItemMap[t.focusIndex]
            && (Windowed(t) <==> !AddsBackButton(s, s.focusIndex - 1) || s.listIndexStartAt == 1)
  {
    var f := s.focusIndex - 1;
    var s1 := StepUp(s);
    SameRowsKeep(s, s1);
    assert AddsBackButton(s1, f) == AddsBackButton(s, f);
    MoveVia(s1, f);
    assert MoveFocusIndexUp(s) == FocusCurrent(LoadItemBuffer(s1, f).state);
  }

  /** What moving the focus up does besides the focus and the scroll: the
      rows, elements, pool and window stay unless the back button is added,
      the folder and history stay, and the log gains the buffer requests
      followed by `focusItem` for the new focused row. */
  lemma MoveUpFrame(s: State)
    requires s.focusIndex > s.listIndexStartAt && MoveFocusIndexUp(s).Ok?
    ensures var f := s.focusIndex - 1;
            var t := MoveFocusIndexUp(s).state;
            && t.navHistory == s.navHistory && t.navState == s.navState
            && (!AddsBackButton(s, f) ==> SameRows(s, t))
            && f in t.listItemMap
            && t.log == s.log + AskedBefore(s, f) + AskedAfter(t, f) + [FocusItem(t.listItemMap[f])]
  {
    var f := s.focusIndex - 1;
    var s1 := StepUp(s);
    assert AddsBackButton(s1, f) == AddsBackButton(s, f) && AskedBefore(s1, f) == AskedBefore(s, f);
    MoveTail(s1, f);
  }

  /** What moving the focus down does besides the focus and the scroll:
      the same as moving up. */
  lemma MoveDownFrame(s: State)
    requires s.focusIndex < s.listIndexEndAt && MoveFocusIndexDown(s).Ok?
    ensures var f := s.focusIndex + 1;
            var t := MoveFocusIndexDown(s).state;
            && t.navHistory == s.navHistory && t.navState == s.navState
            && (!AddsBackButton(s, f) ==> SameRows(s, t))
            && f in t.listItemMap
            && t.log == s.log + AskedBefore(s, f) + AskedAfter(t, f) + [FocusItem(t.listItemMap[f])]
  {
    var f := s.focusIndex + 1;
    var s1 := StepDown(s);
    assert AddsBackButton(s1, f) == AddsBackButton(s, f) && AskedBefore(s1, f) == AskedBefore(s, f);
    MoveTail(s1, f);
  }

  /** The shared tail of both moves: the buffer around f is loaded and
      row f announced. */
  lemma MoveTail(s: State, f: int)
    requires LoadItemBuffer(s, f).Ok? && FocusCurrent(LoadItemBuffer(s, f).state).Ok?
    ensures var t := FocusCurrent(LoadItemBuffer(s, f).state).state;
            && t.navHistory == s.navHistory && t.navState == s.navState
            && (!AddsBackButton(s, f) ==> SameRows(s, t))
            && t.log == s.log + AskedBefore(s, f) + AskedAfter(t, f) + [FocusItem(t.listItemMap[t.focusIndex])]
  {
    BufferFrame(s, f);
    var s1 := BufferBefore(s, f).state;
    var s2 := LoadItemBuffer(s, f).state;
    assert s2.log == s1.log + AskedAfter(s1, f);
    assert s1.log == s.log + AskedBefore(s, f);
  }

  /** The common tail of both moves, with the focus already on row f of a
      window: the buffer is loaded and row f focused. */
  lemma MoveVia(s: State, f: int)
    requires Wf(s) && Windowed(s) && s.listIndexStartAt <= f <= s.listIndexEndAt && s.focusIndex == f
    ensures LoadItemBuffer(s, f).Ok?
    ensures FocusCurrent(LoadItemBuffer(s, f).state).Ok?
    ensures var t := FocusCurrent(LoadItemBuffer(s, f).state).state;
            && Wf(t) && FocusInWindow(t) && t.focusIndex in t.listItemMap
            && t.listItemMap[f] == s.listItemMap[f]
            && (Windowed(t) <==> !AddsBackButton(s, f) || s.listIndexStartAt == 1)
  {
    BufferKeeps(s, f);
    var s2 := LoadItemBuffer(s, f).state;
    SameRowsKeep(s2, FocusCurrent(s2).state);
  }

  /** The back button added while the window starts at row 2 or later
      leaves row 1 unmapped inside the new window 0 .. listIndexEndAt, and
      `addItem` ignores an index inside the window, so a late answer for
      row 1 never fills the gap. */
  lemma BackButtonGap(s: State, f: int)
    requires Wf(s) && Windowed(s) && s.listIndexStartAt <= f <= s.listIndexEndAt
    requires AddsBackButton(s, f) && s.listIndexStartAt >= 2
    ensures LoadItemBuffer(s, f).Ok?
    ensures var t := LoadItemBuffer(s, f).state;
            && t.listIndexStartAt == 0 && 1 <= t.listIndexEndAt && 1 !in t.listItemMap
            && forall d :: AddItem(t, 1, Some(d)) == Ok(t)
  {
    BufferKeeps(s, f);
    BufferFrame(s, f);
    BackButtonAdd(s, f);
    var a := AddItem(s, 0, Some(BackButtonData(s.navState))).state;
    assert 1 !in s.listItemMap;
    assert 1 !in a.listItemMap;
  }

  /** With row 1 missing, moving the focus up from row 2 fails: the row it
      focuses has no element. */
  lemma GapStopsMoveUp(s: State)
    requires s.listIndexStartAt == 0 && s.focusIndex == 2 && 1 !in s.listItemMap
    ensures MoveFocusIndexUp(s).Thrown?
  {
    var s1 := StepUp(s);
    assert !AddsBackButton(s1, 1);
    assert LoadItemBuffer(s1, 1).Ok?;
    assert LoadItemBuffer(s1, 1).state.listItemMap == s.listItemMap;
  }

  /** `removeFocusItem` does not scroll: removing the last row while it is
      the top visible row leaves the focus on the row above the screen. */
  lemma RemoveCanHideFocus(s: State)
    requires Windowed(s) && 0 <= s.listIndexStartAt < s.listIndexEndAt
    requires s.focusIndex == s.listIndexEndAt == s.listVisibleStartAt
    ensures RemoveFocusItem(s).Ok?
    ensures var t := RemoveFocusItem(s).state;
            && t.focusIndex == s.focusIndex - 1 && t.listVisibleStartAt == s.listVisibleStartAt
            && !FocusVisible(t)
  {
    assert s.focusIndex in s.listItemMap;
    RemoveWindowed(s);
    RemoveRefocuses(s);
  }
}

=== FILE: bookmark_nav.dfy ===
/** Folder navigation: opening and closing the list, entering a folder,
    going back, and the data provider's answers to range requests. */
module BookmarkNav {
  import opened BookmarkState
  import opened BookmarkWindow

  /** `open`: empties the list and asks for the first rows of the root
      folder; the rows arrive through `OpenLoaded`. */
  function Open(s: State): (r: State)
    ensures r.listItemMap == map[] && r.focusIndex == 0 && r.listVisibleStartAt == 0
    ensures r.listIndexStartAt == 0 && r.listIndexEndAt == 0
    ensures r.navState == Str("") && r.listOffset == 0
    ensures r.initializedItems == s.initializedItems + InKeyOrder(s.listItemMap)
    ensures forall k | k in s.listItemMap ::
              s.listItemMap[k] in r.elems && r.elems[s.listItemMap[k]] == BlankElem
    ensures r.listItemRenderNum == s.listItemRenderNum
    ensures r.navHistory == s.navHistory && r.shown == s.shown
    ensures r.log == s.log + [LoadDataByRange(0, OPEN_RANGE, Str(ROOT_FOLDER), AfterOpen)]
  {
    Emit(Reset(s), LoadDataByRange(0, OPEN_RANGE, Str(ROOT_FOLDER), AfterOpen))
  }

  /** `close`: forgets the folder history and hides the list. */
  function Close(s: State): (r: State)
    ensures r.navHistory == [] && !r.shown
    ensures r.log == s.log + [Closed]
    ensures r.(navHistory := s.navHistory, shown := s.shown, log := s.log) == s
  {
    s.(navHistory := [], shown := false, log := s.log + [Closed])
  }

  /** The `open` callback: the root folder goes on the history, its rows
      are rendered, the list is shown and its first row focused. */
  function OpenLoaded(s: State, bookmarks: seq<ItemData>): (r: State)
    ensures r.navHistory == s.navHistory + [ROOT_FOLDER]
    ensures r.navState == Str(ROOT_FOLDER) && r.shown
    ensures r.listIndexEndAt == |bookmarks| - 1
    ensures forall k :: k in r.listItemMap <==> k in s.listItemMap || 0 <= k < |bookmarks|
    ensures |r.log| > |s.log| && r.log[..|s.log|] == s.log && r.log[|r.log| - 1] == Opened
    ensures |bookmarks| > 0 ==> r.log == s.log + [FocusItem(r.listItemMap[0]), Opened]
    ensures r.focusIndex == s.focusIndex
  {
    var s1 := s.(navHistory := s.navHistory + [ROOT_FOLDER]);
    var s2 := Render(s1, bookmarks).(shown := true);
    var s3 := if 0 in s2.listItemMap then Emit(s2, FocusItem(s2.listItemMap[0])) else s2;
    Emit(s3, Opened)
  }

  /** What the `data-type` attribute of an element says: a back button. */
  predicate IsButtonElem(e: Elem)
  {
    e.content.Shows? && e.content.data.kind == Button
  }

  /** The focus step of the folder callbacks: the first row, or the second
      when the first is the back button and a second row exists. */
  function FocusFirstRow(s: State): (r: Outcome)
    ensures r.Thrown? <==>
              s.listIndexEndAt != -1
              && (0 !in s.listItemMap
                  || (IsButtonElem(ElemOf(s, s.listItemMap[0])) && s.listIndexEndAt > 0 && 1 !in s.listItemMap))
    ensures r.Ok? ==> r.state.(focusIndex := s.focusIndex, log := s.log) == s
    ensures r.Ok? && s.listIndexEndAt == -1 ==> r.state == s
    ensures r.Ok? && s.listIndexEndAt != -1 ==>
              var t := r.state;
              var skip := IsButtonElem(ElemOf(s, s.listItemMap[0])) && s.listIndexEndAt > 0;
              && |t.log| == |s.log| + 1 && t.log[..|s.log|] == s.log
              && (skip ==> t.focusIndex == 1 && t.log[|s.log|] == FocusItem(s.listItemMap[1]))
              && (!skip ==> t.focusIndex == s.focusIndex && t.log[|s.log|] == FocusItem(s.listItemMap[0]))
  {
    if s.listIndexEndAt == -1 then Ok(s)
    else if 0 !in s.listItemMap then Thrown
    else
      var first := s.listItemMap[0];
      if IsButtonElem(ElemOf(s, first)) && s.listIndexEndAt > 0 then
        if 1 in s.listItemMap then Ok(Emit(s.(focusIndex := 1), FocusItem(s.listItemMap[1])))
        else Thrown
      else Ok(Emit(s, FocusItem(first)))
  }

  /** The folder callbacks as written: the rows of the current folder
      rendered by `render`, which places |bookmarks| rows (in a sub-folder
      the back button and all but the last bookmark), then the focus step. */
  function ShowFolder(s: State, bookmarks: seq<ItemData>): (r: Outcome)
    ensures r.Ok?
    ensures var t := r.state;
            var n := |bookmarks|;
            && t.navState == CurNavHistory(s.navHistory) && t.navHistory == s.navHistory
            && t.listIndexEndAt == n - 1
            && (forall k :: k in t.listItemMap <==> k in s.listItemMap || 0 <= k < n)
            && (n == 0 ==> t.log == s.log && t.focusIndex == s.focusIndex)
            && (n > 0 ==>
                  && 0 in t.listItemMap && |t.log| == |s.log| + 1 && t.log[..|s.log|] == s.log
                  && var skip := IsButtonElem(ElemOf(t, t.listItemMap[0])) && n > 1;
                     && (skip ==> t.focusIndex == 1 && 1 in t.listItemMap
                                  && t.log[|s.log|] == FocusItem(t.listItemMap[1]))
                     && (!skip ==> t.focusIndex == s.focusIndex && t.log[|s.log|] == FocusItem(t.listItemMap[0])))
  {
    var s1 := Render(s, bookmarks);
    assert s1.listIndexEndAt != -1 ==> 0 in s1.listItemMap;
    FocusFirstRow(s1)
  }

  /** The folder callbacks with `render` corrected: every bookmark is
      placed, after the back button in a sub-folder. */
  function ShowFolderCorrected(s: State, bookmarks: seq<ItemData>): (r: Outcome)
    ensures r.Ok?
    ensures var t := r.state;
            var n := |RowsFor(CurNavHistory(s.navHistory), bookmarks)|;
            && t.navState == CurNavHistory(s.navHistory) && t.navHistory == s.navHistory
            && t.listIndexEndAt == n - 1
            && (forall k :: k in t.listItemMap <==> k in s.listItemMap || 0 <= k < n)
            && (n == 0 ==> t.log == s.log && t.focusIndex == s.focusIndex)
            && (n > 0 ==>
                  && 0 in t.listItemMap && |t.log| == |s.log| + 1 && t.log[..|s.log|] == s.log
                  && var skip := IsButtonElem(ElemOf(t, t.listItemMap[0])) && n > 1;
                     && (skip ==> t.focusIndex == 1 && 1 in t.listItemMap
                                  && t.log[|s.log|] == FocusItem(t.listItemMap[1]))
                     && (!skip ==> t.focusIndex == s.focusIndex && t.log[|s.log|] == FocusItem(t.listItemMap[0])))
  {
    var s1 := RenderCorrected(s, bookmarks);
    assert s1.listIndexEndAt != -1 ==> 0 in s1.listItemMap;
    FocusFirstRow(s1)
  }

  /** The callback of entering folder `folderId`: the folder goes on the
      history and its rows are shown. */
  function FolderLoaded(s: State, folderId: string, bookmarks: seq<ItemData>): (r: Outcome)
    ensures r.Ok?
    ensures r.state.navHistory == s.navHistory + [folderId]
    ensures r.state.navState == Str(folderId)
    ensures r.state.listIndexEndAt == |bookmarks| - 1
  {
    ShowFolder(s.(navHistory := s.navHistory + [folderId]), bookmarks)
  }

  /** `FolderLoaded` with `render` corrected: a sub-folder has a row more
      than it has bookmarks. */
  function FolderLoadedCorrected(s: State, folderId: string, bookmarks: seq<ItemData>): (r: Outcome)
    ensures r.Ok?
    ensures r.state.navHistory == s.navHistory + [folderId]
    ensures r.state.navState == Str(folderId)
    ensures r.state.listIndexEndAt == if folderId == ROOT_FOLDER then |bookmarks| - 1 else |bookmarks|
  {
    ShowFolderCorrected(s.(navHistory := s.navHistory + [folderId]), bookmarks)
  }

  /** The callback of going back to the parent folder: the history is kept
      and the rows of the folder on top of it are shown. */
  function BackLoaded(s: State, bookmarks: seq<ItemData>): (r: Outcome)
    ensures r.Ok?
    ensures r.state.navHistory == s.navHistory
    ensures r.state.navState == CurNavHistory(s.navHistory)
    ensures r.state.listIndexEndAt == |bookmarks| - 1
  {
    ShowFolder(s, bookmarks)
  }

  /** `handleKeyReturn` on element `target` (also a left click): enters a
      folder, opens a bookmark's website and closes the list, or goes back
      to the parent folder; rows of any other type do nothing. */
  function HandleKeyReturn(s: State, target: ElemId): (r: State)
    requires target in s.elems
    ensures s.elems[target].content.Shows? && s.elems[target].content.data.kind == Folder ==>
              var f := s.elems[target].content.data.folderId;
              && r.(log := s.log) == Reset(s)
              && r.log == s.log + [LoadDataByRange(0, FOLDER_RANGE, Str(f), AfterFolder(f))]
    ensures s.elems[target].content.Shows? && s.elems[target].content.data.kind in {Bookmark, Untyped} ==>
              && r.navHistory == [] && !r.shown
              && r.log == s.log + [DisplayWebsite(s.elems[target].content.data.uri), Closed]
    ensures IsButtonElem(s.elems[target]) ==>
              && r.(log := s.log) == Reset(s.(navHistory := Pop(s.navHistory)))
              && r.log == s.log + [LoadDataByRange(0, FOLDER_RANGE, CurNavHistory(Pop(s.navHistory)), AfterBack)]
    ensures s.elems[target].content.Blank? || s.elems[target].content.data.kind.OtherKind? ==> r == s
  {
    match s.elems[target].content
    case Blank => s
    case Shows(d) =>
      match d.kind
      case Folder =>
        Emit(Reset(s), LoadDataByRange(0, FOLDER_RANGE, Str(d.folderId), AfterFolder(d.folderId)))
      case Bookmark => Close(Emit(s, DisplayWebsite(d.uri)))
      case Untyped => Close(Emit(s, DisplayWebsite(d.uri)))
      case Button =>
        var history := Pop(s.navHistory);
        var nav := CurNavHistory(history);
        Emit(Reset(s.(navHistory := history, navState := nav)), LoadDataByRange(0, FOLDER_RANGE, nav, AfterBack))
      case OtherKind(_) => s
  }
}

=== FILE: bookmark_state.dfy ===
/** The state of the TV browser's bookmark list with the DOM taken away.

    List elements are opaque ids; what an element shows (its bookmark data,
    its `data-index` attribute and its vertical offset in rem) is kept in an
    element table. The list keeps a map from list index to element, a pool of
    blank elements ready for reuse, the scroll window indices and the folder
    navigation stack. Outgoing DOM events are appended to a log.
 */
module BookmarkState {

  /** Folder id of the root bookmark folder. */
  const ROOT_FOLDER: string := "/"

  /** Number of rows on screen at once. */
  const MAX_VISIBLE_ITEM: int := 7

  /** Number of list elements the list creates before it recycles them. */
  const MAX_LIST_ELEMENT: int := 21

  /** Height of one row, in rem. */
  const LIST_ITEM_HEIGHT: int := 12

  /** Rows requested when the list opens at the root folder. */
  const OPEN_RANGE: int := MAX_VISIBLE_ITEM * 2

  /** Rows requested when the list enters or leaves a sub-folder. */
  const FOLDER_RANGE: int := MAX_VISIBLE_ITEM + 6

  type ElemId = nat

  datatype Option<T> = None | Some(value: T)

  /** The `type` field of bookmark data. `Untyped` is data whose type is
      missing or empty, which the list treats as a bookmark; `OtherKind`
      stands for a non-empty type other than "folder", "bookmark" and
      "button", and its name is not constrained further. */
  datatype Kind = Folder | Bookmark | Button | OtherKind(name: string) | Untyped

  /** Bookmark data as the list displays it. */
  datatype ItemData = ItemData(kind: Kind, title: string, uri: string, folderId: string, readOnly: bool)

  /** What an element shows: nothing (a reset element) or some data. */
  datatype Content = Blank | Shows(data: ItemData)

  /** One list element: its content, its `data-index` and its vertical
      offset (the rem value of its `translateY` transform). */
  datatype Elem = Elem(content: Content, index: int, offset: int)

  /** An element after `resetItem`: no content, index -1, no transform. */
  const BlankElem: Elem := Elem(Blank, -1, 0)

  /** A JavaScript value that is a string or `null`. */
  datatype JsString = Null | Str(value: string)

  /** What the data provider's answer to a range request is handed to. */
  datatype Resume = AfterOpen | AfterFolder(folderId: string) | AfterBack

  /** Events the list dispatches on its host element. */
  datatype Event =
    | LoadDataByRange(startAt: int, number: int, folderId: JsString, resume: Resume)
    | LoadDataByIndex(listIndex: int, dataIndex: int, folder: JsString)
    | FocusItem(elem: ElemId)
    | ItemRemoved
    | Opened
    | Closed
    | DisplayWebsite(uri: string)

  datatype State = State(
    focusIndex: int,
    listIndexStartAt: int,
    listIndexEndAt: int,
    listVisibleStartAt: int,
    navState: JsString,
    navHistory: seq<string>,
    listItemMap: map<int, ElemId>,
    initializedItems: seq<ElemId>,
    listItemRenderNum: nat,
    elems: map<ElemId, Elem>,
    listOffset: int,       // rem offset of the list's own `translateY`
    shown: bool,           // the `show` class on the host element
    log: seq<Event>)

  /** The result of an operation: the new state, or the TypeError the
      JavaScript raises when it dereferences a missing list element. */
  datatype Outcome = Ok(state: State) | Thrown

  /** The state the constructor builds. */
  function Initial(): State
  {
    State(0, 0, 0, 0, Str(""), [], map[], [], 0, map[], 0, false, [])
  }

  /** JavaScript string conversion of a string or null. */
  function JsText(v: JsString): string
  {
    match v
    case Null => "null"
    case Str(t) => t
  }

  function IsRoot(nav: JsString): bool
  {
    nav == Str(ROOT_FOLDER)
  }

  /** The folder on top of the navigation stack, or null when it is empty. */
  function CurNavHistory(history: seq<string>): JsString
  {
    if |history| > 0 then Str(history[|history| - 1]) else Null
  }

  /** `Array.prototype.pop` on the navigation stack, result discarded. */
  function Pop(history: seq<string>): seq<string>
  {
    if |history| > 0 then history[..|history| - 1] else history
  }

  /** Data of the row that leads back to the parent folder. */
  function BackButtonData(nav: JsString): ItemData
  {
    ItemData(Button, "Back to " + JsText(nav), "", "", false)
  }

  /** The data index that a list index stands for: in a sub-folder row 0 is
      the back button, so every other row is one data item further on. */
  function DataIndex(nav: JsString, listIndex: int): int
  {
    if IsRoot(nav) then listIndex else listIndex - 1
  }

  /** The element with this id; ids outside the table read as blank. */
  function ElemOf(s: State, id: ElemId): Elem
  {
    if id in s.elems then s.elems[id] else BlankElem
  }

  function Emit(s: State, e: Event): State
  {
    s.(log := s.log + [e])
  }

  /** An element shown at list index i with the matching offset. */
  predicate PlacedAt(e: Elem, i: int)
  {
    e.content.Shows? && e.index == i && e.offset == LIST_ITEM_HEIGHT * i
  }

  /** The element table holds exactly the elements created so far. */
  ghost predicate ElemsCreated(s: State)
  {
    forall id: ElemId :: id in s.elems <==> id < s.listItemRenderNum
  }

  /** Every mapped element is shown at its own index. */
  ghost predicate MapPlaced(s: State)
  {
    forall i | i in s.listItemMap :: s.listItemMap[i] in s.elems && PlacedAt(s.elems[s.listItemMap[i]], i)
  }

  /** The pool holds blank elements of the table. */
  ghost predicate PoolBlank(s: State)
  {
    forall k | 0 <= k < |s.initializedItems| ::
      s.initializedItems[k] in s.elems && s.elems[s.initializedItems[k]].content.Blank?
  }

  /** No element is pooled twice. */
  ghost predicate PoolDistinct(s: State)
  {
    forall j, k | 0 <= j < k < |s.initializedItems| :: s.initializedItems[j] != s.initializedItems[k]
  }

  /** Every blank element is in the pool. */
  ghost predicate BlankPooled(s: State)
  {
    forall id | id in s.elems && s.elems[id].content.Blank? :: id in s.initializedItems
  }

  /** Every shown element is the mapped element of its own index. */
  ghost predicate ShownMapped(s: State)
  {
    forall id | id in s.elems && s.elems[id].content.Shows? ::
      s.elems[id].index in s.listItemMap && s.listItemMap[s.elems[id].index] == id
  }

  /** Structural invariant: the element table holds exactly the elements
      created so far; every mapped element is shown at its own index; the pool
      holds distinct blank elements; every element is in the map or the pool. */
  ghost predicate Wf(s: State)
  {
    && ElemsCreated(s) && MapPlaced(s) && PoolBlank(s) && PoolDistinct(s)
    && BlankPooled(s) && ShownMapped(s)
  }

  /** The mapped indices are exactly the window [listIndexStartAt, listIndexEndAt]. */
  ghost predicate Windowed(s: State)
  {
    && s.listIndexStartAt <= s.listIndexEndAt + 1
    && (forall i :: i in s.listItemMap <==> s.listIndexStartAt <= i <= s.listIndexEndAt)
  }

  /** The focused row is one of the mapped rows, when there are any. */
  ghost predicate FocusInWindow(s: State)
  {
    s.listIndexStartAt <= s.listIndexEndAt ==> s.listIndexStartAt <= s.focusIndex <= s.listIndexEndAt
  }

  /** The focused row is one of the MAX_VISIBLE_ITEM rows on screen. */
  ghost predicate FocusVisible(s: State)
  {
    s.listVisibleStartAt <= s.focusIndex < s.listVisibleStartAt + MAX_VISIBLE_ITEM
  }

  /** The list is scrolled so that row listVisibleStartAt is at the top. */
  ghost predicate ScrollMatchesWindow(s: State)
  {
    s.listOffset == -LIST_ITEM_HEIGHT * s.listVisibleStartAt
  }
}

=== FILE: bookmark_window.dfy ===
/** The virtual-scroll window of the bookmark list: emptying it, filling it
    from a page of bookmark data, growing it at either end and removing the
    focused row. */
module BookmarkWindow {
  import opened BookmarkState

  // ---------------------------------------------------------------------
  // reset

  lemma {:induction false} MinExists(ks: set<int>)
    requires ks != {}
    ensures exists k :: k in ks && forall j | j in ks :: k <= j
    decreases |ks|
  {
    var x := AnyMember(ks);
    if ks == {x} {
      assert forall j | j in ks :: x <= j;
    } else {
      var rest := ks - {x};
      MinExists(rest);
      var k :| k in rest && forall j | j in rest :: k <= j;
      var m := if x < k then x else k;
      forall j | j in ks
        ensures m <= j
      {
        if j != x {
          assert j in rest;
        }
      }
      assert m in ks;
    }
  }

  /** Some member of a non-empty set. */
  lemma AnyMember(ks: set<int>) returns (x: int)
    requires ks != {}
    ensures x in ks
  {
    // With no member at all, ks would be the empty set.
    if forall y :: y !in ks {
      assert false;
    }
    x :| x in ks;
  }

  function MinKey(ks: set<int>): (k: int)
    requires ks != {}
    ensures k in ks && forall j | j in ks :: k <= j
  {
    MinExists(ks);
    var k :| k in ks && forall j | j in ks :: k <= j;
    k
  }

  /** The keys in ascending order: the order in which `for ... in` visits
      the non-negative integer keys of a JavaScript object. */
  function Ascending(keys: set<int>): (ks: seq<int>)
    ensures forall k :: k in keys <==> k in ks
    ensures forall a, b | 0 <= a < b < |ks| :: ks[a] < ks[b]
    decreases keys
  {
    if keys == {} then []
    else
      var k := MinKey(keys);
      var tail := Ascending(keys - {k});
      assert forall j | 0 <= j < |tail| :: k < tail[j] by {
        forall j | 0 <= j < |tail| ensures k < tail[j] {
          assert tail[j] in tail;
        }
      }
      [k] + tail
  }

  function ValuesAt(m: map<int, ElemId>, ks: seq<int>): (ids: seq<ElemId>)
    requires forall j | 0 <= j < |ks| :: ks[j] in m
    ensures |ids| == |ks|
    ensures forall j | 0 <= j < |ks| :: ids[j] == m[ks[j]]
  {
    if ks == [] then [] else [m[ks[0]]] + ValuesAt(m, ks[1..])
  }

  /** Every element of `ids` replaced by a blank element. */
  function BlankAll(elems: map<ElemId, Elem>, ids: set<ElemId>): (r: map<ElemId, Elem>)
    ensures r.Keys == elems.Keys + ids
    ensures forall id | id in ids :: id in r && r[id] == BlankElem
    ensures forall id | id in elems && id !in ids :: id in r && r[id] == elems[id]
  {
    map id | id in elems.Keys + ids :: if id in ids then BlankElem else elems[id]
  }

  /** A key at which m holds the value id. */
  lemma ValueKey(m: map<int, ElemId>, id: ElemId) returns (k: int)
    requires id in m.Values
    ensures k in m && m[k] == id
  {
    // With no key holding id, id would not be among the values.
    if forall j | j in m :: m[j] != id {
      assert false;
    }
    k :| k in m && m[k] == id;
  }

  /** The elements of m at the keys ks, listed in order: every mapped
      element once, no stray element, and no repeats when m is injective. */
  lemma ValuesAtCovers(m: map<int, ElemId>, ks: seq<int>)
    requires forall k :: k in m <==> k in ks
    requires forall a, b | 0 <= a < b < |ks| :: ks[a] < ks[b]
    ensures forall j | 0 <= j < |ks| :: ks[j] in m
    ensures forall k | k in m :: m[k] in ValuesAt(m, ks)
    ensures forall id | id in ValuesAt(m, ks) :: id in m.Values
  {
    forall j | 0 <= j < |ks| ensures ks[j] in m {
      assert ks[j] in ks;
    }
    var ids := ValuesAt(m, ks);
    forall k | k in m
      ensures m[k] in ids
    {
      var j :| 0 <= j < |ks| && ks[j] == k;
      assert ids[j] == m[k];
    }
    forall id | id in ids
      ensures id in m.Values
    {
      var j :| 0 <= j < |ids| && ids[j] == id;
      assert ks[j] in m;
    }
  }

  lemma ValuesAtDistinct(m: map<int, ElemId>, ks: seq<int>)
    requires forall j | 0 <= j < |ks| :: ks[j] in m
    requires forall a, b | 0 <= a < b < |ks| :: ks[a] < ks[b]
    requires Injective(m)
    ensures forall a, b | 0 <= a < b < |ks| :: ValuesAt(m, ks)[a] != ValuesAt(m, ks)[b]
  {
    forall a, b | 0 <= a < b < |ks|
      ensures ValuesAt(m, ks)[a] != ValuesAt(m, ks)[b]
    {
      assert ks[a] < ks[b];
    }
  }

  /** The elements of m in ascending key order. */
  function InKeyOrder(m: map<int, ElemId>): (ids: seq<ElemId>)
    ensures |ids| == |Ascending(m.Keys)|
    ensures forall k | k in m :: m[k] in ids
    ensures forall id | id in ids :: id in m.Values
    ensures Injective(m) ==> forall a, b | 0 <= a < b < |ids| :: ids[a] != ids[b]
  {
    var keys := Ascending(m.Keys);
    ValuesAtCovers(m, keys);
    if Injective(m) then
      ValuesAtDistinct(m, keys);
      ValuesAt(m, keys)
    else ValuesAt(m, keys)
  }

  /** No two keys of m share an element. */
  predicate Injective(m: map<int, ElemId>)
  {
    forall a, b | a in m && b in m && a != b :: m[a] != m[b]
  }

  /** `reset`: every mapped element is blanked and pushed onto the pool in
      key order, the map is emptied, the list is scrolled back to the top and
      all four indices return to 0. */
  function Reset(s: State): (r: State)
    ensures r.focusIndex == 0 && r.listVisibleStartAt == 0
    ensures r.listIndexStartAt == 0 && r.listIndexEndAt == 0
    ensures r.navState == Str("") && r.listOffset == 0
    ensures r.listItemMap == map[]
    ensures r.initializedItems == s.initializedItems + InKeyOrder(s.listItemMap)
    ensures forall k | k in s.listItemMap ::
              s.listItemMap[k] in r.elems && r.elems[s.listItemMap[k]] == BlankElem
    ensures forall id | id in s.elems && id !in s.listItemMap.Values :: id in r.elems && r.elems[id] == s.elems[id]
    ensures r.elems.Keys == s.elems.Keys + s.listItemMap.Values
    ensures r.navHistory == s.navHistory && r.log == s.log && r.shown == s.shown
    ensures r.listItemRenderNum == s.listItemRenderNum
  {
    var m := s.listItemMap;
    var released := InKeyOrder(m);
    var pool := s.initializedItems + released;
    var r := s.(focusIndex := 0, listVisibleStartAt := 0, listIndexStartAt := 0, listIndexEndAt := 0,
       navState := Str(""), listOffset := 0,
       elems := BlankAll(s.elems, m.Values),
       initializedItems := pool,
       listItemMap := map[]);
    assert forall k | k in m :: m[k] in m.Values by {
      forall k | k in m ensures m[k] in m.Values {
        assert m[k] in m.Values;
      }
    }
    r
  }

  /** x + y keeps x as its prefix and y as its suffix. */
  lemma AppendParts(x: seq<ElemId>, y: seq<ElemId>)
    ensures |x + y| >= |x| && (x + y)[..|x|] == x && (x + y)[|x|..] == y
    ensures (forall a, b | 0 <= a < b < |y| :: y[a] != y[b]) ==>
              forall a, b | |x| <= a < b < |x + y| :: (x + y)[a] != (x + y)[b]
  {
    if forall a, b | 0 <= a < b < |y| :: y[a] != y[b] {
      forall a, b | |x| <= a < b < |x + y| ensures (x + y)[a] != (x + y)[b] {
        assert (x + y)[a] == y[a - |x|];
      }
    }
  }

  lemma AppendIndex(x: seq<ElemId>, y: seq<ElemId>, j: int)
    requires 0 <= j < |x + y|
    ensures (x + y)[j] == if j < |x| then x[j] else y[j - |x|]
  {
  }

  lemma AppendContains(x: seq<ElemId>, y: seq<ElemId>, id: ElemId)
    ensures id in x + y <==> id in x || id in y
  {
  }

  /** The pool after `reset`: the old pool followed by every element that
      was mapped, each once when no two rows shared an element, and nothing
      else. */
  lemma ResetPools(s: State)
    ensures var r := Reset(s);
            var p := |s.initializedItems|;
            && |r.initializedItems| >= p && r.initializedItems[..p] == s.initializedItems
            && (forall k | k in s.listItemMap :: s.listItemMap[k] in r.initializedItems[p..])
            && (forall id | id in r.initializedItems[p..] :: id in s.listItemMap.Values)
            && (Injective(s.listItemMap) ==>
                  forall a, b | p <= a < b < |r.initializedItems| :: r.initializedItems[a] != r.initializedItems[b])
  {
    AppendParts(s.initializedItems, InKeyOrder(s.listItemMap));
  }

  // ---------------------------------------------------------------------
  // render

  /** An element for a new row: the last pooled element when the pool is
      not empty, otherwise a newly created one (`createItem`). */
  function Acquire(s: State): (State, ElemId)
  {
    var pool := s.initializedItems;
    if |pool| > 0 then (s.(initializedItems := pool[..|pool| - 1]), pool[|pool| - 1])
    else (s.(listItemRenderNum := s.listItemRenderNum + 1), s.listItemRenderNum)
  }

  /** Element `id` shows `d` as row i, at offset LIST_ITEM_HEIGHT * i. */
  function Place(s: State, id: ElemId, d: ItemData, i: int): State
  {
    s.(elems := s.elems[id := Elem(Shows(d), i, LIST_ITEM_HEIGHT * i)],
       listItemMap := s.listItemMap[i := id])
  }

  /** r took k elements for new rows, pooled elements first: only once the
      pool ran dry were new elements created. */
  ghost predicate PoolFirst(s: State, r: State, k: nat)
  {
    var p := |s.initializedItems|;
    if p >= k then
      r.initializedItems == s.initializedItems[..p - k] && r.listItemRenderNum == s.listItemRenderNum
    else
      r.initializedItems == [] && r.listItemRenderNum == s.listItemRenderNum + (k - p)
  }

  /** The loop of `render` from row i on: rows[j] goes to list index j. */
  function PlaceRows(s: State, rows: seq<ItemData>, i: nat): (r: State)
    requires i <= |rows|
    ensures forall k :: k in r.listItemMap <==> k in s.listItemMap || i <= k < |rows|
    ensures forall k | k in s.listItemMap && !(i <= k < |rows|) ::
              k in r.listItemMap && r.listItemMap[k] == s.listItemMap[k]
    ensures PoolFirst(s, r, |rows| - i)
    ensures r.(elems := s.elems, listItemMap := s.listItemMap, initializedItems := s.initializedItems,
               listItemRenderNum := s.listItemRenderNum) == s
    decreases |rows| - i
  {
    if i == |rows| then s
    else
      var (s1, id) := Acquire(s);
      PlaceRows(Place(s1, id, rows[i], i), rows, i + 1)
  }

  /** The rows of a folder listing: in a sub-folder the back button comes first. */
  function RowsFor(nav: JsString, bookmarks: seq<ItemData>): seq<ItemData>
  {
    if IsRoot(nav) then bookmarks else [BackButtonData(nav)] + bookmarks
  }

  /** Places the given rows at list indices 0 .. |rows|-1 under the current folder. */
  function FillRows(s: State, rows: seq<ItemData>): (r: State)
    ensures r.navState == CurNavHistory(s.navHistory)
    ensures r.listIndexEndAt == |rows| - 1
    ensures forall k :: k in r.listItemMap <==> k in s.listItemMap || 0 <= k < |rows|
    ensures forall k | k in s.listItemMap && !(0 <= k < |rows|) ::
              k in r.listItemMap && r.listItemMap[k] == s.listItemMap[k]
    ensures PoolFirst(s, r, |rows|)
    ensures r.focusIndex == s.focusIndex && r.listIndexStartAt == s.listIndexStartAt
    ensures r.listVisibleStartAt == s.listVisibleStartAt && r.listOffset == s.listOffset
    ensures r.navHistory == s.navHistory && r.log == s.log && r.shown == s.shown
  {
    PlaceRows(s.(navState := CurNavHistory(s.navHistory)), rows, 0).(listIndexEndAt := |rows| - 1)
  }

  /** `render` as written: the row count n is read before the back button is
      put in front, so in a sub-folder only the back button and the first
      n-1 bookmarks are placed. */
  function Render(s: State, bookmarks: seq<ItemData>): (r: State)
    ensures r.navState == CurNavHistory(s.navHistory)
    ensures r.listIndexEndAt == |bookmarks| - 1
    ensures forall k :: k in r.listItemMap <==> k in s.listItemMap || 0 <= k < |bookmarks|
    ensures PoolFirst(s, r, |bookmarks|)
    ensures r.focusIndex == s.focusIndex && r.listIndexStartAt == s.listIndexStartAt
    ensures r.listVisibleStartAt == s.listVisibleStartAt && r.listOffset == s.listOffset
    ensures r.navHistory == s.navHistory && r.log == s.log && r.shown == s.shown
  {
    FillRows(s, RowsFor(CurNavHistory(s.navHistory), bookmarks)[..|bookmarks|])
  }

  /** `render` with the row count taken after the back button is put in
      front: every bookmark gets a row. */
  function RenderCorrected(s: State, bookmarks: seq<ItemData>): (r: State)
    ensures r.navState == CurNavHistory(s.navHistory)
    ensures var n := if IsRoot(r.navState) then |bookmarks| else |bookmarks| + 1;
            && r.listIndexEndAt == n - 1
            && PoolFirst(s, r, n)
            && (forall k :: k in r.listItemMap <==> k in s.listItemMap || 0 <= k < n)
    ensures r.focusIndex == s.focusIndex && r.listIndexStartAt == s.listIndexStartAt
    ensures r.listVisibleStartAt == s.listVisibleStartAt && r.listOffset == s.listOffset
    ensures r.navHistory == s.navHistory && r.log == s.log && r.shown == s.shown
  {
    FillRows(s, RowsFor(CurNavHistory(s.navHistory), bookmarks))
  }

  // ---------------------------------------------------------------------
  // addItem

  /** Adding a row outside the window takes the element at the far end of
      the window: the pool is empty and the element budget is used up. */
  predicate MustEvict(s: State)
  {
    |s.initializedItems| == 0 && s.listItemRenderNum == MAX_LIST_ELEMENT
  }

  /** The element for a row added outside the window, and the state after
      taking it; None when the element to evict does not exist. */
  function Recycle(s: State, below: bool): Option<(State, ElemId)>
  {
    if !MustEvict(s) then Some(Acquire(s))
    else
      var far := if below then s.listIndexEndAt else s.listIndexStartAt;
      if far !in s.listItemMap then None
      else
        var s1 := s.(listItemMap := s.listItemMap - {far});
        Some((if below then s1.(listIndexEndAt := far - 1) else s1.(listIndexStartAt := far + 1),
              s.listItemMap[far]))
  }

  /** `addItem`: a row given by the data provider. Outside the window it
      becomes the new first or last row; falsy data and indices inside the
      window change nothing. */
  function AddItem(s: State, index: int, data: Option<ItemData>): (r: Outcome)
    ensures data.None? || s.listIndexStartAt <= index <= s.listIndexEndAt ==> r == Ok(s)
    ensures r.Thrown? <==>
              && data.Some? && !(s.listIndexStartAt <= index <= s.listIndexEndAt) && MustEvict(s)
              && (if index < s.listIndexStartAt then s.listIndexEndAt else s.listIndexStartAt) !in s.listItemMap
    ensures r.Ok? && data.Some? && !(s.listIndexStartAt <= index <= s.listIndexEndAt) ==>
              var t := r.state;
              && index in t.listItemMap && t.listItemMap[index] in t.elems
              && t.elems[t.listItemMap[index]] == Elem(Shows(data.value), index, LIST_ITEM_HEIGHT * index)
              && (|s.initializedItems| > 0 ==>
                    && t.listItemMap[index] == s.initializedItems[|s.initializedItems| - 1]
                    && t.initializedItems == s.initializedItems[..|s.initializedItems| - 1])
              && (!MustEvict(s) ==> t.listItemMap.Keys == s.listItemMap.Keys + {index})
              && (MustEvict(s) ==> t.listItemRenderNum == s.listItemRenderNum)
              && (|s.initializedItems| == 0 && !MustEvict(s) ==>
                    && t.listItemMap[index] == s.listItemRenderNum
                    && t.listItemRenderNum == s.listItemRenderNum + 1)
              && t.listItemRenderNum <= s.listItemRenderNum + 1
    ensures r.Ok? && data.Some? && index < s.listIndexStartAt ==>
              var t := r.state;
              && t.listIndexStartAt == index
              && (MustEvict(s) ==>
                    && t.listIndexEndAt == s.listIndexEndAt - 1
                    && t.listItemMap.Keys == s.listItemMap.Keys - {s.listIndexEndAt} + {index}
                    && t.listItemMap[index] == s.listItemMap[s.listIndexEndAt])
              && (!MustEvict(s) ==> t.listIndexEndAt == s.listIndexEndAt)
    ensures r.Ok? && data.Some? && index > s.listIndexEndAt && index >= s.listIndexStartAt ==>
              var t := r.state;
              && t.listIndexEndAt == index
              && (MustEvict(s) ==>
                    && t.listIndexStartAt == s.listIndexStartAt + 1
                    && t.listItemMap.Keys == s.listItemMap.Keys - {s.listIndexStartAt} + {index}
                    && t.listItemMap[index] == s.listItemMap[s.listIndexStartAt])
              && (!MustEvict(s) ==> t.listIndexStartAt == s.listIndexStartAt)
    ensures r.Ok? && s.listItemRenderNum <= MAX_LIST_ELEMENT ==> r.state.listItemRenderNum <= MAX_LIST_ELEMENT
    ensures r.Ok? ==>
              && r.state.focusIndex == s.focusIndex && r.state.listVisibleStartAt == s.listVisibleStartAt
              && r.state.navState == s.navState && r.state.navHistory == s.navHistory
              && r.state.log == s.log && r.state.listOffset == s.listOffset && r.state.shown == s.shown
  {
    if data.None? || s.listIndexStartAt <= index <= s.listIndexEndAt then Ok(s)
    else
      var below := index < s.listIndexStartAt;
      match Recycle(s, below)
      case None => Thrown
      case Some((s1, id)) =>
        var s2 := Place(s1, id, data.value, index);
        Ok(if below then s2.(listIndexStartAt := index) else s2.(listIndexEndAt := index))
  }

  /** What `addItem` leaves alone: every row but the new one and, when the
      element is evicted, the far end of the window keeps its element, and
      every element but the one taken keeps what it shows. */
  lemma AddItemKeeps(s: State, index: int, d: ItemData)
    requires !(s.listIndexStartAt <= index <= s.listIndexEndAt)
    requires AddItem(s, index, Some(d)).Ok?
    ensures var t := AddItem(s, index, Some(d)).state;
            var far := if index < s.listIndexStartAt then s.listIndexEndAt else s.listIndexStartAt;
            && index in t.listItemMap
            && (forall k | k in s.listItemMap && k != index && (k != far || !MustEvict(s)) ::
                  k in t.listItemMap && t.listItemMap[k] == s.listItemMap[k])
            && (forall id | id in s.elems && id != t.listItemMap[index] ::
                  id in t.elems && t.elems[id] == s.elems[id])
  {
    var below := index < s.listIndexStartAt;
    var (s1, id) := Recycle(s, below).value;
    var t := AddItem(s, index, Some(d)).state;
    assert t.listItemMap == s1.listItemMap[index := id] && t.elems == s.elems[id := Elem(Shows(d), index, LIST_ITEM_HEIGHT * index)];
  }

  // ---------------------------------------------------------------------
  // removeFocusItem

  /** The re-indexing loop of `removeFocusItem` from i on: the element at
      j+1 moves to j, takes index j and moves up one row height. None when
      an element it reads is missing. */
  function ShiftDown(s: State, i: int): (r: Option<State>)
    ensures r.Some? ==> r.value.(elems := s.elems, listItemMap := s.listItemMap) == s
    decreases s.listIndexEndAt - i
  {
    if i >= s.listIndexEndAt then Some(s)
    else if i + 1 !in s.listItemMap then None
    else ShiftDown(ShiftStep(s, i), i + 1)
  }

  /** One pass of the re-indexing loop: row i takes row i+1's element,
      which is re-placed at index i, one row height higher. */
  function ShiftStep(s: State, i: int): (r: State)
    requires i + 1 in s.listItemMap
    ensures r.listIndexEndAt == s.listIndexEndAt
    ensures r.listItemMap == s.listItemMap[i := s.listItemMap[i + 1]]
  {
    var id := s.listItemMap[i + 1];
    var e := ElemOf(s, id);
    s.(listItemMap := s.listItemMap[i := id],
       elems := s.elems[id := Elem(e.content, i, e.offset - LIST_ITEM_HEIGHT)])
  }

  /** The rows side of the re-indexing loop, on the map alone: row i
      takes row i+1's element, up to the last row but one. None when a row
      it reads is missing. */
  function ShiftRows(m: map<int, ElemId>, i: int, end: int): Option<map<int, ElemId>>
    decreases end - i
  {
    if i >= end then Some(m)
    else if i + 1 !in m then None
    else ShiftRows(m[i := m[i + 1]], i + 1, end)
  }

  /** The loop on the whole state does to the rows what ShiftRows does. */
  lemma {:induction false} ShiftDownRows(s: State, i: int)
    ensures ShiftDown(s, i).Some? <==> ShiftRows(s.listItemMap, i, s.listIndexEndAt).Some?
    ensures ShiftDown(s, i).Some? ==>
              ShiftDown(s, i).value.listItemMap == ShiftRows(s.listItemMap, i, s.listIndexEndAt).value
    decreases s.listIndexEndAt - i
  {
    if i < s.listIndexEndAt && i + 1 in s.listItemMap {
      var s' := ShiftStep(s, i);
      assert ShiftDown(s, i) == ShiftDown(s', i + 1);
      ShiftDownRows(s', i + 1);
    }
  }

  /** The loop succeeds exactly when the rows behind i are all there. */
  lemma {:induction false} ShiftRowsSome(m: map<int, ElemId>, i: int, end: int)
    ensures ShiftRows(m, i, end).Some? <==> forall j | i < j <= end :: j in m
    decreases end - i
  {
    if i < end && i + 1 in m {
      ShiftRowsSome(m[i := m[i + 1]], i + 1, end);
      assert forall j | i + 1 < j :: j in m[i := m[i + 1]] <==> j in m;
    }
  }

  /** After the loop, the rows are those there before plus the ones from i
      up to the last but one. */
  lemma {:induction false} ShiftRowsKeys(m: map<int, ElemId>, i: int, end: int, r: map<int, ElemId>)
    requires ShiftRows(m, i, end) == Some(r)
    ensures forall k {:trigger k in r} :: k in r <==> k in m || i <= k < end
    decreases end - i
  {
    if i < end {
      ShiftRowsKeys(m[i := m[i + 1]], i + 1, end, r);
    }
  }

  /** After the loop, row j holds what row j+1 held, for every row from i
      up to the last but one. */
  lemma {:induction false} ShiftRowsShifted(m: map<int, ElemId>, i: int, end: int, r: map<int, ElemId>)
    requires ShiftRows(m, i, end) == Some(r)
    ensures forall j | i < j <= end :: j in m
    ensures forall j | i <= j < end :: j in r
    ensures forall j {:trigger r[j]} | i <= j < end :: r[j] == m[j + 1]
    decreases end - i
  {
    ShiftRowsSome(m, i, end);
    ShiftRowsKeys(m, i, end, r);
    if i < end {
      var m' := m[i := m[i + 1]];
      assert ShiftRows(m', i + 1, end) == Some(r);
      ShiftRowsShifted(m', i + 1, end, r);
      ShiftRowsKept(m', i + 1, end, r);
      forall j {:trigger r[j]} | i <= j < end
        ensures r[j] == m[j + 1]
      {
        if j == i {
          assert i in m' && !(i + 1 <= i < end);
          assert r[i] == m'[i];
        } else {
          assert r[j] == m'[j + 1];
          assert j + 1 != i;
        }
      }
    }
  }

  /** The last row and the rows before i keep their elements. */
  lemma {:induction false} ShiftRowsKept(m: map<int, ElemId>, i: int, end: int, r: map<int, ElemId>)
    requires ShiftRows(m, i, end) == Some(r)
    ensures forall k {:trigger r[k]} | k in m && !(i <= k < end) :: k in r && r[k] == m[k]
    decreases end - i
  {
    if i < end {
      var m' := m[i := m[i + 1]];
      assert ShiftRows(m', i + 1, end) == Some(r);
      ShiftRowsKeys(m', i + 1, end, r);
      ShiftRowsKept(m', i + 1, end, r);
      forall k {:trigger r[k]} | k in m && !(i <= k < end)
        ensures k in r && r[k] == m[k]
      {
        assert k in m' && m'[k] == m[k] && r[k] == m'[k];
      }
    }
  }

  /** The loop on the state succeeds exactly when the rows behind i are
      all there. */
  lemma ShiftDownSome(s: State, i: int)
    ensures ShiftDown(s, i).Some? <==> forall j | i < j <= s.listIndexEndAt :: j in s.listItemMap
  {
    ShiftDownRows(s, i);
    ShiftRowsSome(s.listItemMap, i, s.listIndexEndAt);
  }

  /** The three facts about the loop's rows together, on the state t the
      loop ends in. */
  lemma ShiftDownMoves(s: State, i: int, t: State)
    requires ShiftDown(s, i) == Some(t)
    ensures forall j | i < j <= s.listIndexEndAt :: j in s.listItemMap
    ensures forall k {:trigger k in t.listItemMap} :: k in t.listItemMap <==> k in s.listItemMap || i <= k < s.listIndexEndAt
    ensures forall j {:trigger t.listItemMap[j]} | i <= j < s.listIndexEndAt ::
              j in t.listItemMap && j + 1 in s.listItemMap && t.listItemMap[j] == s.listItemMap[j + 1]
    ensures forall k {:trigger t.listItemMap[k]} | k in s.listItemMap && !(i <= k < s.listIndexEndAt) ::
              k in t.listItemMap && t.listItemMap[k] == s.listItemMap[k]
  {
    ShiftDownRows(s, i);
    ShiftRowsSome(s.listItemMap, i, s.listIndexEndAt);
    ShiftRowsKeys(s.listItemMap, i, s.listIndexEndAt, t.listItemMap);
    ShiftRowsShifted(s.listItemMap, i, s.listIndexEndAt, t.listItemMap);
    ShiftRowsKept(s.listItemMap, i, s.listIndexEndAt, t.listItemMap);
  }

  /** The state `removeFocusItem` hands to its re-indexing loop: the
      focused element blanked and pushed onto the pool. */
  function Blanked(s: State): (r: State)
    requires s.focusIndex in s.listItemMap
    ensures r.initializedItems == s.initializedItems + [s.listItemMap[s.focusIndex]]
    ensures r.(elems := s.elems, initializedItems := s.initializedItems) == s
  {
    var target := s.listItemMap[s.focusIndex];
    s.(elems := s.elems[target := BlankElem], initializedItems := s.initializedItems + [target])
  }

  /** The last row dropped after the loop. */
  function Trimmed(s: State): (r: State)
    ensures forall k :: k in r.listItemMap <==> k in s.listItemMap && k != s.listIndexEndAt
    ensures r.listIndexEndAt == s.listIndexEndAt - 1
  {
    s.(listItemMap := s.listItemMap - {s.listIndexEndAt}, listIndexEndAt := s.listIndexEndAt - 1)
  }

  /** The end of `removeFocusItem`: the focused row, or else the new last
      row, is focused, and `itemRemoved` is dispatched. */
  function Refocus(s: State): (r: Outcome)
    ensures r.Thrown? <==>
              s.focusIndex !in s.listItemMap && s.listIndexEndAt != -1 && s.listIndexEndAt !in s.listItemMap
    ensures r.Ok? ==>
              var t := r.state;
              && t.(focusIndex := s.focusIndex, log := s.log) == s
              && t.focusIndex == (if s.focusIndex !in s.listItemMap && s.listIndexEndAt != -1
                                  then s.listIndexEndAt else s.focusIndex)
              && |t.log| == |s.log| + (if t.focusIndex in t.listItemMap then 2 else 1)
              && t.log[..|s.log|] == s.log && t.log[|t.log| - 1] == ItemRemoved
              && (t.focusIndex in t.listItemMap ==> t.log[|s.log|] == FocusItem(t.listItemMap[t.focusIndex]))
  {
    if s.focusIndex in s.listItemMap then
      Ok(Emit(Emit(s, FocusItem(s.listItemMap[s.focusIndex])), ItemRemoved))
    else if s.listIndexEndAt != -1 then
      if s.listIndexEndAt in s.listItemMap then
        var s1 := s.(focusIndex := s.listIndexEndAt);
        Ok(Emit(Emit(s1, FocusItem(s1.listItemMap[s1.focusIndex])), ItemRemoved))
      else Thrown
    else Ok(Emit(s, ItemRemoved))
  }

  /** `removeFocusItem`: without an element at the focus nothing happens;
      otherwise the focused element goes back to the pool and the list
      loses its last index. */
  function RemoveFocusItem(s: State): (r: Outcome)
    ensures s.focusIndex !in s.listItemMap ==> r == Ok(s)
    ensures r.Ok? && s.focusIndex in s.listItemMap ==>
              var t := r.state;
              && t.initializedItems == s.initializedItems + [s.listItemMap[s.focusIndex]]
              && t.listIndexEndAt == s.listIndexEndAt - 1
              && t.listIndexStartAt == s.listIndexStartAt && t.listVisibleStartAt == s.listVisibleStartAt
              && t.navState == s.navState && t.navHistory == s.navHistory
              && t.listItemRenderNum == s.listItemRenderNum && t.listOffset == s.listOffset && t.shown == s.shown
  {
    if s.focusIndex !in s.listItemMap then Ok(s)
    else
      match ShiftDown(Blanked(s), s.focusIndex)
      case None => Thrown
      case Some(s2) => Refocus(Trimmed(s2))
  }

  /** `removeFocusItem` fails exactly when the re-indexing loop reads a
      missing row, or the removed row was the last one and the row before
      it, which it then focuses, is missing. */
  lemma RemoveThrows(s: State)
    requires s.focusIndex in s.listItemMap
    ensures RemoveFocusItem(s).Thrown? <==>
              || (exists j :: s.focusIndex < j <= s.listIndexEndAt && j !in s.listItemMap)
              || (s.focusIndex == s.listIndexEndAt && s.listIndexEndAt != 0
                  && s.listIndexEndAt - 1 !in s.listItemMap)
  {
    var s1 := Blanked(s);
    ShiftDownSome(s1, s.focusIndex);
    if ShiftDown(s1, s.focusIndex).Some? {
      ShiftDownMoves(s1, s.focusIndex, ShiftDown(s1, s.focusIndex).value);
    }
  }

  /** The rows after `removeFocusItem`: the rows behind the focus move up
      by one, the rows before it stay, and the last index is gone. */
  lemma RemoveRows(s: State)
    requires s.focusIndex in s.listItemMap && RemoveFocusItem(s).Ok?
    ensures var t := RemoveFocusItem(s).state;
            && (forall k {:trigger k in t.listItemMap} :: k in t.listItemMap <==>
                  (k in s.listItemMap || s.focusIndex <= k < s.listIndexEndAt) && k != s.listIndexEndAt)
            && (forall j | s.focusIndex < j <= s.listIndexEndAt :: j in s.listItemMap)
            && (forall j {:trigger t.listItemMap[j]} | s.focusIndex <= j < s.listIndexEndAt ::
                  j in t.listItemMap && j + 1 in s.listItemMap && t.listItemMap[j] == s.listItemMap[j + 1])
            && (forall k {:trigger t.listItemMap[k]} | k in s.listItemMap && k < s.focusIndex && k != s.listIndexEndAt ::
                  k in t.listItemMap && t.listItemMap[k] == s.listItemMap[k])
  {
    ShiftDownMoves(Blanked(s), s.focusIndex, ShiftDown(Blanked(s), s.focusIndex).value);
  }

  /** The focus after `removeFocusItem` stays put unless it was on the last
      row, in which case it moves to the new last row; the new focused row
      is announced, then `itemRemoved`. */
  lemma RemoveRefocuses(s: State)
    requires s.focusIndex in s.listItemMap && RemoveFocusItem(s).Ok?
    ensures var t := RemoveFocusItem(s).state;
            && t.focusIndex == (if s.focusIndex == s.listIndexEndAt && s.listIndexEndAt != 0
                                then s.listIndexEndAt - 1 else s.focusIndex)
            && |t.log| == |s.log| + (if t.focusIndex in t.listItemMap then 2 else 1)
            && t.log[..|s.log|] == s.log && t.log[|t.log| - 1] == ItemRemoved
            && (t.focusIndex in t.listItemMap ==> t.log[|s.log|] == FocusItem(t.listItemMap[t.focusIndex]))
  {
    ShiftDownMoves(Blanked(s), s.focusIndex, ShiftDown(Blanked(s), s.focusIndex).value);
  }
}
